=== FILE: README.md ===
# mrpc server core in Dafny

This project models the decision logic of the mrpc RPC server, without the
network, thread or reflection machinery around it:

- the HTTP transport handler (`HttpServerHandler`):
  - routing of `/status`, `/offline`, `/online` and `/rpc`;
  - the strict, short-circuiting validation chain of a `/rpc` request;
  - parameter binding and request-id defaulting (`parseParams`);
  - the shape of error replies (`sendError`);
  - the static offline flag with `offline()` / `online()`;
- the server lifecycle (`SimpleRpcServer`):
  - `initConfig` defaults and codec selection;
  - parsing of the `host:port` bind address;
  - the per-service fallbacks for appId, address, elastic IP and registry name;
  - `usedRegistry` and `mapToRegistry`;
  - the startup registration loop;
  - in-flight bookkeeping of submitted tasks;
  - the once-only `close()` with its teardown order;
  - the payload of the admin status notice;
- `NodeStatusEnum`: the three node statuses and their display labels;
- `BaseHook.before`: the access gate of the admin console.

Layout:

- `results.dfy`: `Option` and `Result`.
- `java_text.dfy`: the string behaviour the core relies on:
  - the project's own `StringUtils.isEmpty`, read as null or of length zero;
  - `String.split(":")`, including the dropped trailing empty strings;
  - `Integer.parseInt` / `Integer.toString` in 32-bit range;
  - `equalsIgnoreCase` against a lower-case ASCII constant.
- `node_status.dfy`: `NodeStatusEnum`.
- `admin_hook.dfy`: `BaseHook.before`.
- `services.dfy`: the records:
  - service beans;
  - reflective method signatures;
  - registries;
  - built requests;
  - events.
- `server_config.dfy`:
  - `initConfig`;
  - address parsing;
  - the fallbacks;
  - `usedRegistry`, `getRegistry`;
  - `mapToRegistry`.
- `http_router.dfy`: `channelRead0`, `parseParams`, `sendError`, `offline`, `online`.
- `lifecycle.dfy`:
  - startup (`startServer`, `bindRpcServer`, `registerEmbedded`);
  - `submit` and its callbacks;
  - `close()`;
  - a step relation with run lemmas.
- `admin_notice.dfy`: the notice built by `sendServerStatus`.

External effects become parameters:

- registry calls are oracles saying whether a call returns normally:
  - `listCallOk` for the list calls;
  - `register` for the startup loop;
  - `ok` for the unregister calls;
- JSON decoding of the body and of each argument is a partial function in `Env`;
- the generated UUID is a non-empty `freshId`;
- the local host address is `localHost`;
- whether the socket binds is `bindOk`;
- the current time is `now`.

The service map is represented by its `values()` in iteration order. Lookup
by name returns the first bean with that name. Startup requires the names to
be unique, as the keys of a map are.

## Model

| member | source | states |
|---|---|---|
| `JavaText.Split` | mrpc-core/src/main/java/com/kongzhong/mrpc/server/SimpleRpcServer.java:234 | `address.split(":")`: the parts hold no ':'; a string without ':' gives itself; otherwise the parts are the separator pieces with exactly the trailing empty ones removed |
| `JavaText.Pieces` | mrpc-core/src/main/java/com/kongzhong/mrpc/server/SimpleRpcServer.java:234 | the raw pieces of a split are never empty as a list |
| `JavaText.PiecesJoin` | mrpc-core/src/main/java/com/kongzhong/mrpc/server/SimpleRpcServer.java:234 | joining the split pieces with the separator gives back the original string, and no piece holds the separator |
| `JavaText.DropTrailingEmpty` | mrpc-core/src/main/java/com/kongzhong/mrpc/server/SimpleRpcServer.java:234 | the result is a prefix of the input, everything dropped is empty, and the result does not end in an empty string |
| `JavaText.SplitHostPort` | mrpc-core/src/main/java/com/kongzhong/mrpc/server/SimpleRpcServer.java:244-246 | "host:port" with a colon-free host and non-empty port splits into exactly [host, port] |
| `JavaText.ParseInt` | mrpc-core/src/main/java/com/kongzhong/mrpc/server/SimpleRpcServer.java:240 | `Integer.parseInt`: a result exists iff the text is an optional sign followed by at least one decimal digit and its value is within 32 bits, and the result is that value |
| `JavaText.NatToString` | mrpc-core/src/main/java/com/kongzhong/mrpc/server/SimpleRpcServer.java:241 | the decimal form consists of digits, denotes the number, and has no leading zero |
| `JavaText.IntToString` | mrpc-core/src/main/java/com/kongzhong/mrpc/server/SimpleRpcServer.java:241 | the printed form starts with '-' exactly for negative numbers |
| `JavaText.ParseIntToString` | mrpc-core/src/main/java/com/kongzhong/mrpc/server/SimpleRpcServer.java:240-241 | printing a 32-bit int and parsing it back gives the same int |
| `NodeStatus.Ordinal` | mrpc-common/src/main/java/com/kongzhong/mrpc/enums/NodeStatusEnum.java:11-13 | each status sits at its ordinal in the declaration list |
| `NodeStatus.Name` | mrpc-common/src/main/java/com/kongzhong/mrpc/enums/NodeStatusEnum.java:11-13 | `toString` and `valueOf` are inverse: the name parses back to the status |
| `NodeStatus.State` | mrpc-common/src/main/java/com/kongzhong/mrpc/enums/NodeStatusEnum.java:15-23 | `getState` returns the constructor label, and the status can be recovered from it |
| `NodeStatus.FromStateInvertsState` | mrpc-common/src/main/java/com/kongzhong/mrpc/enums/NodeStatusEnum.java:11-23 | each label identifies its status: a label belongs to a status iff it is that status's `getState` |
| `NodeStatus.DeclaredIsExact` | mrpc-common/src/main/java/com/kongzhong/mrpc/enums/NodeStatusEnum.java:11-13 | there are exactly three statuses, each declared once, in the order ONLINE, OFFLINE, CONNECTING |
| `NodeStatus.StateInjective` | mrpc-common/src/main/java/com/kongzhong/mrpc/enums/NodeStatusEnum.java:11-13 | two statuses have the same label iff they are the same status |
| `NodeStatus.StateLabels` | mrpc-common/src/main/java/com/kongzhong/mrpc/enums/NodeStatusEnum.java:11-23 | ONLINE is labelled "存活", OFFLINE "离线", CONNECTING "连接中" |
| `AdminHook.Before` | mrpc-admin/src/main/java/com/kongzhong/mrpc/admin/hook/BaseHook.java:22-37 | the request proceeds iff the URI does not start with "/admin/" or a session user exists; it redirects to "/login" iff it does not proceed; the session and cookie are read only on the admin branch |
| `AdminHook.OutsideAdminAlwaysProceeds` | mrpc-admin/src/main/java/com/kongzhong/mrpc/admin/hook/BaseHook.java:26-27 | outside "/admin/" the request proceeds without reading the session |
| `AdminHook.AdminNeedsSessionUser` | mrpc-admin/src/main/java/com/kongzhong/mrpc/admin/hook/BaseHook.java:27-34 | under "/admin/", a session user lets the request through; without one it is redirected to "/login" and refused |
| `AdminHook.CookieIgnored` | mrpc-admin/src/main/java/com/kongzhong/mrpc/admin/hook/BaseHook.java:31-33 | the cookie value has no influence on the decision |
| `AdminHook.PrefixIsExact` | mrpc-admin/src/main/java/com/kongzhong/mrpc/admin/hook/BaseHook.java:27 | "/admin" without the slash and "/Admin/…" pass; "/admin/…" without a user is refused |
| `Services.Lookup` | mrpc-core/src/main/java/com/kongzhong/mrpc/transport/http/HttpServerHandler.java:167-171 | a found bean is in the map under the requested name; nothing is found iff no bean has that name |
| `Services.LookupFindsBean` | mrpc-core/src/main/java/com/kongzhong/mrpc/transport/http/HttpServerHandler.java:167 | with unique keys, looking up a bean's name finds that bean |
| `Services.FindMethod` | mrpc-core/src/main/java/com/kongzhong/mrpc/transport/http/HttpServerHandler.java:218-225 | the method is found by name alone; nothing is found iff no method has that name |
| `ServerConfig.SelectCodec` | mrpc-core/src/main/java/com/kongzhong/mrpc/server/SimpleRpcServer.java:191-197 | Kyro iff the name equals "kyro" ignoring case, Protostuff iff it equals "protostuff" ignoring case, none otherwise |
| `ServerConfig.InitConfig` | mrpc-core/src/main/java/com/kongzhong/mrpc/server/SimpleRpcServer.java:179-201 | succeeds iff the codec name is missing or known and the codec class is instantiated, failing with "RPC server serialize is null." otherwise; on success the Netty options and the codec name are defaulted, the registry is used iff it already was or the registry map is non-empty, and nothing else changes |
| `ServerConfig.CodecDefaults` | mrpc-core/src/main/java/com/kongzhong/mrpc/server/SimpleRpcServer.java:180-201 | when the codec class loads, no codec name gives "kyro" and Kyro; "KYRO" gives Kyro, "ProtoStuff" gives Protostuff, "json" fails |
| `ServerConfig.ParseBindAddress` | mrpc-core/src/main/java/com/kongzhong/mrpc/server/SimpleRpcServer.java:234-247 | a null address raises NullPointerException; one part is a port on the local host and the address is rewritten "localHost:port"; two parts are host and port; any other count leaves host null and port -1; an unparsable port raises NumberFormatException |
| `ServerConfig.IntToStringHasNoColon` | mrpc-core/src/main/java/com/kongzhong/mrpc/server/SimpleRpcServer.java:241 | the printed port holds no ':' |
| `ServerConfig.ParseHostAndPort` | mrpc-core/src/main/java/com/kongzhong/mrpc/server/SimpleRpcServer.java:244-247 | "host:port" binds that host and port and keeps the address |
| `ServerConfig.ParsePortOnly` | mrpc-core/src/main/java/com/kongzhong/mrpc/server/SimpleRpcServer.java:238-242 | a bare port binds the local host and rewrites the address to "localHost:port" |
| `ServerConfig.RewrittenAddressIsStable` | mrpc-core/src/main/java/com/kongzhong/mrpc/server/SimpleRpcServer.java:238-247 | parsing the rewritten address again gives the same host, port and address |
| `ServerConfig.Fallback` | mrpc-core/src/main/java/com/kongzhong/mrpc/server/SimpleRpcServer.java:399-427 | the bean's own value when non-empty, else the server-level value |
| `ServerConfig.RegistryName` | mrpc-core/src/main/java/com/kongzhong/mrpc/server/SimpleRpcServer.java:439-441 | the bean's registry when non-empty, else "default"; never empty |
| `ServerConfig.RegistryOf` | mrpc-core/src/main/java/com/kongzhong/mrpc/server/SimpleRpcServer.java:435-437 | a registry is found iff the registry name is a key of the map, and it is the value under that key |
| `ServerConfig.RegistryOfImpliesUses` | mrpc-core/src/main/java/com/kongzhong/mrpc/server/SimpleRpcServer.java:395-397 | a bean that finds a registry is a bean that uses a registry |
| `ServerConfig.Prepare` | mrpc-core/src/main/java/com/kongzhong/mrpc/server/SimpleRpcServer.java:258-271 | before `register` the bean gets its registry name and the appId, address and elastic IP fallbacks; its name and object are kept |
| `ServerConfig.PrepareIdempotent` | mrpc-core/src/main/java/com/kongzhong/mrpc/server/SimpleRpcServer.java:258-271 | preparing a prepared bean changes nothing |
| `ServerConfig.MapToRegistry` | mrpc-core/src/main/java/com/kongzhong/mrpc/server/SimpleRpcServer.java:513-538 | type "default" gives a local registry; type "zookeeper" raises iff the address is missing or empty, and otherwise gives a ZooKeeper client on that address when the class loads; any other type gives null |
| `HttpRouter.GoOffline` | mrpc-core/src/main/java/com/kongzhong/mrpc/transport/http/HttpServerHandler.java:290-294 | `offline()` leaves the flag set and appends SERVER_OFFLINE to the fired events |
| `HttpRouter.GoOnline` | mrpc-core/src/main/java/com/kongzhong/mrpc/transport/http/HttpServerHandler.java:296-299 | `online()` leaves the flag clear and fires nothing |
| `HttpRouter.OfflineFiresEveryCall` | mrpc-core/src/main/java/com/kongzhong/mrpc/transport/http/HttpServerHandler.java:290-294 | n calls of `offline()` keep the flag set and fire exactly n SERVER_OFFLINE events |
| `HttpRouter.OnlineOfflineFlag` | mrpc-core/src/main/java/com/kongzhong/mrpc/transport/http/HttpServerHandler.java:290-299 | `online()` undoes the flag of `offline()` but not its event; a second `online()` changes nothing |
| `HttpRouter.SendError` | mrpc-core/src/main/java/com/kongzhong/mrpc/transport/http/HttpServerHandler.java:255-280 | a 502 reply with success=false, the exception, returnType the ConnectException class name, the correlation headers copied from the request (empty when absent), and the no-cache headers |
| `HttpRouter.BindFrom` | mrpc-core/src/main/java/com/kongzhong/mrpc/transport/http/HttpServerHandler.java:228-234 | binding succeeds iff every declared parameter has a raw value that decodes to its type; then there is exactly one argument per declared parameter, each decoded from the raw value at the same index |
| `HttpRouter.SuccessHeaders` | mrpc-core/src/main/java/com/kongzhong/mrpc/transport/http/HttpServerHandler.java:183-197 | the 200 reply's headers echo the built request's id, class and method, plus keep-alive when the request asked for it |
| `HttpRouter.ParseParams` | mrpc-core/src/main/java/com/kongzhong/mrpc/transport/http/HttpServerHandler.java:213-248 | the "Method [m] not found." error iff no method has the name; with the method found, the handler raises iff the arguments do not bind, with the binding's exception; a submitted request has the service as class name, the method's name, parameter types and return type, the body's context, as arguments exactly the raw parameters bound to the parameter types, and the body's request id or else the fresh one |
| `HttpRouter.Dispatch` | mrpc-core/src/main/java/com/kongzhong/mrpc/transport/http/HttpServerHandler.java:137-181 | the data path never answers with a status reply (its check order is stated by FirstFailingCheckDecides) |
| `HttpRouter.Route` | mrpc-core/src/main/java/com/kongzhong/mrpc/transport/http/HttpServerHandler.java:67-202 | `/status` replies 200 with the flag's status and changes nothing; the flag ends set iff the path is `/offline` or it was set and the path is not `/online`; only `/offline` fires an event; only control paths call a registry; a submission needs `/rpc` while online; offline, non-control paths get the offline error |
| `HttpRouter.StatusReportsFlag` | mrpc-core/src/main/java/com/kongzhong/mrpc/transport/http/HttpServerHandler.java:73-86 | `/status` is answered with 200 and reports OFFLINE iff the flag is set, ONLINE iff it is clear |
| `HttpRouter.OfflinePathEffect` | mrpc-core/src/main/java/com/kongzhong/mrpc/transport/http/HttpServerHandler.java:89-105 | `/offline` goes offline, unregisters the whole service map on the first registry and replies OFFLINE, or raises when that call raises |
| `HttpRouter.OnlinePathEffect` | mrpc-core/src/main/java/com/kongzhong/mrpc/transport/http/HttpServerHandler.java:108-124 | `/online` clears the flag without an event, registers the whole service map on the first registry and replies ONLINE |
| `HttpRouter.ControlPathWithoutRegistry` | mrpc-core/src/main/java/com/kongzhong/mrpc/transport/http/HttpServerHandler.java:90-92 | with no registry configured `/offline` and `/online` raise, after the flag has changed |
| `HttpRouter.RepeatedOfflineRepeatsEffects` | mrpc-core/src/main/java/com/kongzhong/mrpc/transport/http/HttpServerHandler.java:89-105 | a second `/offline` repeats the unregister call and fires the event again |
| `HttpRouter.OfflineRejectsDataPath` | mrpc-core/src/main/java/com/kongzhong/mrpc/transport/http/HttpServerHandler.java:126-129 | while offline, any non-control path, unknown paths included, gets "The server has been offline." and nothing changes |
| `HttpRouter.UnknownPathIsBadRequest` | mrpc-core/src/main/java/com/kongzhong/mrpc/transport/http/HttpServerHandler.java:131-135 | online, a path other than the control paths and `/rpc` gets "Bad request" |
| `HttpRouter.FirstFailingCheckDecides` | mrpc-core/src/main/java/com/kongzhong/mrpc/transport/http/HttpServerHandler.java:137-177 | on `/rpc` the first failing check in the order body, format, service, method, registration, bean, method lookup decides the error, and nothing is submitted or changed |
| `HttpRouter.AllChecksPass` | mrpc-core/src/main/java/com/kongzhong/mrpc/transport/http/HttpServerHandler.java:178-201 | when all checks pass, the request is submitted iff its parameters bind, and otherwise the handler raises |
| `HttpRouter.SubmittedRequestShape` | mrpc-core/src/main/java/com/kongzhong/mrpc/transport/http/HttpServerHandler.java:182-201 | a submitted request names the requested service and resolved method, carries the method's parameter and return types, the body's context and the body's parameters bound to those types, carries the body's id or the fresh one, and is answered 200 with matching headers |
| `Lifecycle.RegisterStep` | mrpc-core/src/main/java/com/kongzhong/mrpc/server/SimpleRpcServer.java:256-278 | a bean is skipped iff it uses no registry; otherwise it is prepared, and it gets a status entry iff its registry exists and `register` returns; a missing registry or a non-RpcException aborts the loop |
| `Lifecycle.AddedEntriesAreRegistered` | mrpc-core/src/main/java/com/kongzhong/mrpc/server/SimpleRpcServer.java:272-277 | every status entry belongs to a bean whose `register` returned, with the server's weight |
| `Lifecycle.RegisterAtStartup` | mrpc-core/src/main/java/com/kongzhong/mrpc/server/SimpleRpcServer.java:256-284 | the loop visits beans in order and stops only at the first aborting bean; every visited bean is prepared as its step says, later beans are untouched, and the status table holds the entries of the visited beans |
| `Lifecycle.PutService` | mrpc-core/src/main/java/com/kongzhong/mrpc/server/SimpleRpcServer.java:306-316 | the embedded bean replaces a bean of the same name or is added; the other beans are kept, names stay unique, and lookup finds the new bean |
| `Lifecycle.StartServer` | mrpc-core/src/main/java/com/kongzhong/mrpc/server/SimpleRpcServer.java:174-300 | an InitializeException escapes iff `initConfig` fails; the server starts iff `initConfig` succeeds, the address parses, the bind succeeds on a valid port and no bean's registration aborts; an abort carries the address error, BindFailed, or the first aborting bean's RegistryMissing / RegisterFailed, and keeps what was already done: the rewritten address, the service map with the embedded bean and the beans prepared up to the aborting one, and the status entries of the beans before it; a started server holds the prepared beans, the status entries of the registered ones and exactly their names as registered, fired SERVER_ONLINE, and is running with no future tracked and an empty teardown record |
| `Lifecycle.PublishServices` | mrpc-core/src/main/java/com/kongzhong/mrpc/server/SimpleRpcServer.java:256-296 | after the bind, the server starts iff no bean's registration aborts; the first aborting bean decides the exception, and the beans prepared so far and the entries before it stay; a started server fired SERVER_ONLINE, holds each bean as its loop step left it, the entries of exactly the beans whose `register` returned, and their names as registered; it is running with no future tracked and an empty teardown record |
| `Lifecycle.AbortError` | mrpc-core/src/main/java/com/kongzhong/mrpc/server/SimpleRpcServer.java:266-277 | an aborting bean reports a missing registry iff its registry name maps to none, otherwise the failure of `register`, naming the bean |
| `Lifecycle.Submit` | mrpc-core/src/main/java/com/kongzhong/mrpc/server/SimpleRpcServer.java:451-504 | a task is accepted iff the pool is not shut down, and an accepted future joins the in-flight list with its transport; no other future's transport and nothing else changes |
| `Lifecycle.Complete` | mrpc-core/src/main/java/com/kongzhong/mrpc/server/SimpleRpcServer.java:457-502 | a finished task starts a write iff the pool that runs its callback is not shut down, the task succeeded and, for the HTTP variant, the channel is active; the future stays in flight |
| `Lifecycle.Flushed` | mrpc-core/src/main/java/com/kongzhong/mrpc/server/SimpleRpcServer.java:463-466 | only the write listener removes the future from the in-flight list |
| `Lifecycle.Close` | mrpc-core/src/main/java/com/kongzhong/mrpc/server/SimpleRpcServer.java:551-567 | a closed server is left unchanged; otherwise `close()` sets the guard, goes offline and waits for the futures in flight at that moment |
| `Lifecycle.UnregisterAll` | mrpc-core/src/main/java/com/kongzhong/mrpc/server/SimpleRpcServer.java:570-581 | at most one unregister per bean, each recording whether its call returned |
| `Lifecycle.UnregisterIsolated` | mrpc-core/src/main/java/com/kongzhong/mrpc/server/SimpleRpcServer.java:570-581 | every bean with a registry is unregistered in order, whatever the outcomes of the others |
| `Lifecycle.FinishClose` | mrpc-core/src/main/java/com/kongzhong/mrpc/server/SimpleRpcServer.java:563-581 | once the awaited futures are done, the pool is shut down and then each bean with a registry is unregistered; successfully unregistered services leave the registered set |
| `Lifecycle.CloseOnce` | mrpc-core/src/main/java/com/kongzhong/mrpc/server/SimpleRpcServer.java:551-558 | a second `close()` has no effect |
| `Lifecycle.TeardownOrder` | mrpc-core/src/main/java/com/kongzhong/mrpc/server/SimpleRpcServer.java:558-581 | after a first `close()` and any run of steps that ends with every future of the close-time snapshot done, teardown has gone offline, recorded all those futures done, shut the pool down, then unregistered every bean with a registry, in order |
| `Lifecycle.DrainingKeepsTeardown` | mrpc-core/src/main/java/com/kongzhong/mrpc/server/SimpleRpcServer.java:563-567 | while `close()` waits, no step changes the teardown record, the service map or the registry map |
| `Lifecycle.Receive` | mrpc-core/src/main/java/com/kongzhong/mrpc/transport/http/HttpServerHandler.java:68-200 | a request is submitted as an HTTP future iff routing built one and the pool is not shut down, and a rejected submission raises; a successful `/online` list call marks every service registered and a successful `/offline` one unregistered, and nothing else changes the registered set; a server with a registry never fails for lack of one; the request changes nothing else of the server |
| `Lifecycle.ApplyKeepsInv` | mrpc-core/src/main/java/com/kongzhong/mrpc/server/SimpleRpcServer.java:451-581 | every step keeps the bookkeeping invariant: written futures are done and out of flight, done futures out of flight were written, closed iff close began, pool shut down iff close finished |
| `Lifecycle.RunKeepsInv` | mrpc-core/src/main/java/com/kongzhong/mrpc/server/SimpleRpcServer.java:451-581 | every run keeps the bookkeeping invariant |
| `Lifecycle.RemovedOnlyAfterWrite` | mrpc-core/src/main/java/com/kongzhong/mrpc/server/SimpleRpcServer.java:463-466 | a future leaves the in-flight list only after its reply was written |
| `Lifecycle.RunKeepsDone` | mrpc-core/src/main/java/com/kongzhong/mrpc/server/SimpleRpcServer.java:451-504 | a future once tracked stays in flight or done |
| `Lifecycle.UnwrittenFutureStays` | mrpc-core/src/main/java/com/kongzhong/mrpc/server/SimpleRpcServer.java:483-501 | a done future that started no write stays in the in-flight list forever |
| `Lifecycle.NoWriteNoRemoval` | mrpc-core/src/main/java/com/kongzhong/mrpc/server/SimpleRpcServer.java:457-502 | a failed task, an HTTP task finishing on an inactive channel, or a task finishing after the pool was shut down is never removed from the in-flight list |
| `Lifecycle.ShutdownAfterDrain` | mrpc-core/src/main/java/com/kongzhong/mrpc/server/SimpleRpcServer.java:563-569 | the pool is shut down only after every future in flight when close began is done |
| `Lifecycle.DrainSnapshotKept` | mrpc-core/src/main/java/com/kongzhong/mrpc/server/SimpleRpcServer.java:563-569 | close stays waiting on its snapshot until the whole snapshot is done |
| `Lifecycle.FinishedKeepsDone` | mrpc-core/src/main/java/com/kongzhong/mrpc/server/SimpleRpcServer.java:569-581 | after close has finished, it stays finished and done futures stay done |
| `AdminNotice.NoticePort` | mrpc-core/src/main/java/com/kongzhong/mrpc/server/SimpleRpcServer.java:356 | a port is reported iff the address has a second ':'-part that parses, and it is that part's value; a null address or a missing second part raises, and an unparsable second part raises NumberFormatException |
| `AdminNotice.BuildNotice` | mrpc-core/src/main/java/com/kongzhong/mrpc/server/SimpleRpcServer.java:353-366 | the APPID property overrides the appId; the status is the constant's name; an online time appears iff the status is ONLINE and an offline time iff it is OFFLINE |
| `AdminNotice.ConnectingHasNoTimes` | mrpc-core/src/main/java/com/kongzhong/mrpc/server/SimpleRpcServer.java:360-366 | a CONNECTING notice carries neither time |
| `AdminNotice.NoticeReportsBoundPort` | mrpc-core/src/main/java/com/kongzhong/mrpc/server/SimpleRpcServer.java:238-247 | after a successful bind, the notice reports exactly the bound port |

## Left out

- Netty plumbing is not modelled:
  - bootstrap, event loops and channel options;
  - `channelSync` and the test-mode thread;
  - `exceptionCaught`;
  - the Content-Type and Content-Length headers;
  - the query-string decoding that produces the path.
  The path arrives already decoded.
- JSON serialisation of replies and the notice body is left out. Decoding the request body and each argument is a parameter that parses or fails.
- Reflection is left out: `AopUtils.getTargetClass`, `ReflectUtils.method`, `ReflectUtils.newInstance` for the codec, and loading the ZooKeeper client class. A target class is a list of method signatures. `codecLoads` says whether the codec was instantiated, and `zkLoads` says whether the ZooKeeper client could be built.
- Concurrency is not modelled:
  - the worker pool and the futures are a sequential state machine, with task completion and write completion as explicit steps;
  - the lock in `close()` is modelled only as the once-only guard;
  - `close()` polls until every awaited future is done, which is modelled as the step `FinishClose`, enabled only then;
  - the race in which a callback removes a future before `submit` has added it to the list is not modelled.
  - a task's completion and the hand-over of its callback to the pool are one step (`Complete`): a callback handed over after `close()` shut the pool down is rejected and writes nothing, one handed over before still runs.
- EventManager listeners are left out; fired events are recorded in a sequence. The admin notices that listeners send are modelled only as their payload.
- The HTTP post, timeouts and basic authentication of `sendServerStatus` are left out. So are the site IP, PID, owner fields and the service list of the notice.
- The business thread-pool size, `ServerConfig.me().setElasticIp` and the shutdown hook are left out.
- Parts of `Integer.parseInt` are not modelled: it also accepts non-ASCII Unicode decimal digits, and the model accepts ASCII digits only.
- `JavaText.EqualsIgnoreCase` compares only against lower-case ASCII constants without 'i'; "kyro" and "protostuff" are the only ones the core uses. The two non-ASCII characters Java folds onto their letters are handled: KELVIN SIGN onto 'k', LATIN SMALL LETTER LONG S onto 's'. For 'i' Java also folds U+0130 and U+0131, which is not modelled.
- `sendError` with a null request cannot happen: every call passes the request. So the branch that omits the correlation headers is not modelled.
- `HttpRouter.Dispatch` states only that the data path gives no status reply. Its check order is stated separately by `FirstFailingCheckDecides`, `AllChecksPass` and `SubmittedRequestShape`.
- `Lifecycle.UnregisterAll` states per-entry facts only. Which beans are attempted, and in what order, is stated by `UnregisterIsolated`.
- `JavaText.IsEmpty` reads the project's own `com.kongzhong.mrpc.utils.StringUtils.isEmpty` as "null or of length zero". That class is not part of this model. The reading decides whether a whitespace-only body, service name or method name is rejected (HttpServerHandler.java:138-162), and whether a whitespace-only ZooKeeper address raises (SimpleRpcServer.java:521). It also decides the per-service fallbacks of SimpleRpcServer.java:396-440.
- `RegistryEnum` and `NettyConfig` are not part of this model. Two things depend on them:
  - the type names "default" and "zookeeper";
  - reading `new NettyConfig(128, true)` as backlog 128 with keep-alive on.
- The registry map's `values().iterator().next()` is taken to be the first registry of the map's iteration order (`Env.registries[0]`).
- Every `/offline` and every `/online` repeats the registry list call, and every `/offline` fires SERVER_OFFLINE again (HttpServerHandler.java:89-124); `RepeatedOfflineRepeatsEffects` states this.
- `Lifecycle.PutService` assumes `RpcMapping.addServiceBean` is a keyed put that replaces a same-name bean in place or adds the new one at the end of the iteration order. `RpcMapping` is not part of this model, and a hash map does not guarantee that order.
- `ServerConfig.ParseBindAddress` and `AdminNotice.NoticeReportsBoundPort` assume a local host address without ':'. With an IPv6 local address the rewritten "host:port" splits into more than two parts, so the address would not bind again and `split(":")[1]` in the notice would not be the port.
- Admin requests (`/offline`, `/online`) are not steps of the step relation, so `Lifecycle.DrainingKeepsTeardown` does not cover one that arrives while `close()` waits.

=== FILE: admin_hook.dfy ===
/** The admin console's `BaseHook.before`: the access gate run before every
    web request. Only the decision is modelled; the session, cookie and
    redirect objects of the web framework become plain values. */
module AdminHook {
  import opened Results
  import opened JavaText

  const AdminPrefix: string := "/admin/"
  const LoginPath: string := "/login"

  /** What `before` does: whether the request proceeds, where it was
      redirected, and whether the session and the login cookie were read. */
  datatype Decision = Decision(
    proceed: bool,
    redirect: Option<string>,
    sessionRead: bool,
    cookieRead: bool)

  /** The gate for a request to `uri`; `hasSessionUser` says whether the
      session holds a logged-in user, `cookie` is the login cookie's value. */
  function Before(uri: string, hasSessionUser: bool, cookie: Option<string>): (d: Decision)
    ensures d.proceed <==> !StartsWith(uri, AdminPrefix) || hasSessionUser
    ensures d.redirect == (if d.proceed then None else Some(LoginPath))
    ensures d.sessionRead <==> StartsWith(uri, AdminPrefix)
    ensures d.cookieRead <==> !d.proceed
  {
    if StartsWith(uri, AdminPrefix) then
      if !hasSessionUser then Decision(false, Some(LoginPath), true, true)
      else Decision(true, None, true, false)
    else Decision(true, None, false, false)
  }

  /** A URI outside "/admin/" is let through and the session is never consulted. */
  lemma OutsideAdminAlwaysProceeds(uri: string, hasSessionUser: bool, cookie: Option<string>)
    requires !StartsWith(uri, AdminPrefix)
    ensures Before(uri, hasSessionUser, cookie) == Decision(true, None, false, false)
  {
  }

  /** Under "/admin/" the request proceeds exactly when a user is logged in,
      and otherwise is redirected to the login page. */
  lemma AdminNeedsSessionUser(uri: string, hasSessionUser: bool, cookie: Option<string>)
    requires StartsWith(uri, AdminPrefix)
    ensures Before(uri, hasSessionUser, cookie).proceed == hasSessionUser
    ensures !hasSessionUser ==> Before(uri, hasSessionUser, cookie).redirect == Some("/login")
  {
  }

  /** The cookie that is read has no influence on the decision. */
  lemma CookieIgnored(uri: string, hasSessionUser: bool, c1: Option<string>, c2: Option<string>)
    ensures Before(uri, hasSessionUser, c1) == Before(uri, hasSessionUser, c2)
  {
  }

  /** The prefix test is exact and case-sensitive: "/admin" without the
      trailing slash and "/Admin/…" both pass without a session. */
  lemma PrefixIsExact()
    ensures Before("/admin", false, None).proceed
    ensures Before("/Admin/servers", false, None).proceed
    ensures !Before("/admin/servers", false, None).proceed
  {
    assert "/admin/servers"[..7] == AdminPrefix;
    assert "/Admin/servers"[..7] != AdminPrefix by {
      assert "/Admin/servers"[1] != AdminPrefix[1];
    }
  }
}

=== FILE: admin_notice.dfy ===
/** The payload of the status notice the server posts to the admin console
    (`sendServerStatus`), without the HTTP client around it. */
module AdminNotice {
  import opened Results
  import opened JavaText
  import opened NodeStatus
  import opened ServerConfig

  /** The fields of `RpcServerNotice` that the server fills from its own state. */
  datatype Notice = Notice(
    appId: Option<string>,
    port: int,
    status: string,
    onlineTime: Option<string>,
    offlineTime: Option<string>)

  /** Exceptions raised while building the notice, before its send is attempted. */
  datatype NoticeError =
    | AddressNull                 // NullPointerException from `address.split`
    | PortMissing                 // ArrayIndexOutOfBoundsException: no second part
    | PortNotNumber(text: string) // NumberFormatException from `Integer.valueOf`

  /** The port the notice reports: the second ':'-separated part of the server address. */
  function NoticePort(address: Option<string>): (r: Result<int, NoticeError>)
    ensures address.None? ==> r == Failure(AddressNull)
    ensures address.Some? && |Split(address.value, ':')| < 2 ==> r == Failure(PortMissing)
    ensures r.Success? ==>
      address.Some? && |Split(address.value, ':')| >= 2 && ParseInt(Split(address.value, ':')[1]) == Some(r.value)
    ensures address.Some? && |Split(address.value, ':')| >= 2 ==>
      (r.Success? <==> ParseInt(Split(address.value, ':')[1]).Some?)
    ensures r.Failure? && r.error.PortNotNumber? ==> ParseInt(r.error.text).None?
  {
    if address.None? then Failure(AddressNull)
    else
      var parts := Split(address.value, ':');
      if |parts| < 2 then Failure(PortMissing)
      else match ParseInt(parts[1])
        case None => Failure(PortNotNumber(parts[1]))
        case Some(p) => Success(p)
  }

  /** The notice for `status` at time `now`: the APPID system property
      (`appIdProperty`) overrides the server's appId; only an ONLINE notice
      carries an online time and only an OFFLINE one an offline time. */
  function BuildNotice(appIdProperty: Option<string>, appId: Option<string>, address: Option<string>,
                       status: NodeStatus, now: string): (r: Result<Notice, NoticeError>)
    ensures r.Success? <==> NoticePort(address).Success?
    ensures r.Success? ==>
      && r.value.port == NoticePort(address).value
      && r.value.appId == (if appIdProperty.Some? then appIdProperty else appId)
      && FromName(r.value.status) == Some(status)
      && (r.value.onlineTime.Some? <==> status == Online)
      && (r.value.offlineTime.Some? <==> status == Offline)
      && (r.value.onlineTime.Some? ==> r.value.onlineTime.value == now)
      && (r.value.offlineTime.Some? ==> r.value.offlineTime.value == now)
  {
    var port :- NoticePort(address);
    var id := if appIdProperty.Some? then appIdProperty else appId;
    Success(Notice(id, port, Name(status),
                   if status == Online then Some(now) else None,
                   if status == Offline then Some(now) else None))
  }

  /** A CONNECTING notice carries neither time. */
  lemma ConnectingHasNoTimes(appIdProperty: Option<string>, appId: Option<string>, address: Option<string>, now: string)
    requires NoticePort(address).Success?
    ensures var n := BuildNotice(appIdProperty, appId, address, Connecting, now).value;
      n.onlineTime.None? && n.offlineTime.None? && n.status == "CONNECTING"
  {
  }

  /** After a successful bind the address has the form "host:port", so the
      notice reports exactly the port the server bound. */
  lemma NoticeReportsBoundPort(address: string, localHost: string)
    requires ':' !in localHost
    requires ParseBindAddress(Some(address), localHost).Success?
    requires ParseBindAddress(Some(address), localHost).value.host.Some?
    ensures var t := ParseBindAddress(Some(address), localHost).value;
      NoticePort(Some(t.address)) == Success(t.port)
  {
    var t := ParseBindAddress(Some(address), localHost).value;
    RewrittenAddressIsStable(address, localHost);
    var parts := Split(t.address, ':');
    if |Split(address, ':')| == 1 {
      assert t.address == localHost + ":" + IntToString(t.port);
      IntToStringHasNoColon(t.port);
      SplitHostPort(localHost, IntToString(t.port), ':');
      ParseIntToString(t.port);
    } else {
      assert t.address == address;
    }
  }
}

=== FILE: http_router.dfy ===
/** `HttpServerHandler`: the decision logic of the HTTP transport. One
    inbound request is routed to one of three control paths or to the data
    path `/rpc`, where a short-circuiting chain of checks either rejects it
    with an error reply or builds an `RpcRequest` to submit. The only state
    is the static offline flag (plus the events it fires). */
module HttpRouter {
  import opened Results
  import opened JavaText
  import opened Services
  import opened NodeStatus

  const StatusPath: string := "/status"
  const OfflinePath: string := "/offline"
  const OnlinePath: string := "/online"
  const RpcPath: string := "/rpc"

  const HttpOk: int := 200
  const HttpBadGateway: int := 502

  /** Every error reply names this class as its return type, whatever the exception. */
  const ConnectExceptionClass: string := "com.kongzhong.mrpc.exception.ConnectException"

  const OfflineMessage: string := "The server has been offline."

  predicate IsControlPath(path: string) {
    path == StatusPath || path == OfflinePath || path == OnlinePath
  }

  // ---------------------------------------------------------------------
  // The offline flag
  // ---------------------------------------------------------------------

  /** The handler's shared state: the static `IS_OFFLINE` flag and the
      lifecycle events fired so far. */
  datatype Handler = Handler(offline: bool, fired: seq<Event>)

  /** `offline()`: sets the flag and fires SERVER_OFFLINE, on every call. */
  function GoOffline(h: Handler): (h': Handler)
    ensures h'.offline
    ensures h'.fired == h.fired + [ServerOffline]
  {
    Handler(true, h.fired + [ServerOffline])
  }

  /** `online()`: clears the flag and fires nothing. */
  function GoOnline(h: Handler): (h': Handler)
    ensures !h'.offline
    ensures h'.fired == h.fired
  {
    Handler(false, h.fired)
  }

  /** `offline()` called `n` times in a row. */
  function OfflineTimes(h: Handler, n: nat): Handler
    decreases n
  {
    if n == 0 then h else GoOffline(OfflineTimes(h, n - 1))
  }

  /** Repeated `offline()` calls keep the flag set and fire one event each. */
  lemma {:induction false} OfflineFiresEveryCall(h: Handler, n: nat)
    ensures n > 0 ==> OfflineTimes(h, n).offline
    ensures OfflineTimes(h, n).fired == h.fired + seq(n, _ => ServerOffline)
    decreases n
  {
    if n > 0 {
      OfflineFiresEveryCall(h, n - 1);
      assert seq(n, _ => ServerOffline) == seq(n - 1, _ => ServerOffline) + [ServerOffline];
    }
  }

  /** `online()` undoes the flag of `offline()` but not its event, and
      `offline()` after `online()` sets it again. */
  lemma OnlineOfflineFlag(h: Handler)
    ensures GoOnline(GoOffline(h)).offline == false
    ensures GoOnline(GoOffline(h)).fired == h.fired + [ServerOffline]
    ensures GoOffline(GoOnline(h)) == GoOffline(h).(fired := h.fired + [ServerOffline])
    ensures GoOnline(GoOnline(h)) == GoOnline(h)
  {
  }

  // ---------------------------------------------------------------------
  // Requests, replies and the environment
  // ---------------------------------------------------------------------

  /** The correlation headers a client may send (null when absent). */
  datatype CorrelationHeaders = CorrelationHeaders(
    requestId: Option<string>,
    serviceClass: Option<string>,
    methodName: Option<string>)

  /** An inbound HTTP request: decoded path, body text, headers, keep-alive. */
  datatype HttpRequest = HttpRequest(path: string, body: string, headers: CorrelationHeaders, keepAlive: bool)

  /** The JSON request body (`RequestBody`), as far as it parsed. */
  datatype RequestBody = RequestBody(
    service: Option<string>,
    methodName: Option<string>,
    requestId: Option<string>,
    parameters: Option<seq<Json>>,
    context: Option<map<string, string>>)

  datatype ExceptionClass = ConnectException | RpcException

  /** The exception an error reply serialises. */
  datatype Exception = Exception(cls: ExceptionClass, message: string)

  /** The reply headers the core sets beyond content type and length. */
  datatype ReplyHeaders = ReplyHeaders(
    requestId: string,
    serviceClass: string,
    methodName: string,
    allowOrigin: string,
    cacheControl: string,
    pragma: string,
    expires: string,
    keepAlive: bool)

  /** An error reply (`sendError`): the serialised `RpcResponse` and its HTTP envelope. */
  datatype ErrorResponse = ErrorResponse(
    httpStatus: int,
    requestId: string,
    success: bool,
    exception: Exception,
    returnType: string,
    headers: ReplyHeaders)

  /** Exceptions that escape `channelRead0` instead of becoming an error reply. */
  datatype Throwable =
    | NoRegistry                 // iterator().next() on an empty registry map
    | RegistryCallFailed         // registerList / unRegisterList raised
    | NullParameters             // parameters absent but the method takes some
    | ParameterMissing(index: nat)    // fewer raw parameters than the method's arity
    | ParameterUnreadable(index: nat) // a raw parameter does not decode to its type
    | SubmitRejected             // the worker pool has been shut down

  /** What the handler does with one request. */
  datatype Outcome =
    | StatusReply(httpStatus: int, status: string)
    | ErrorReply(response: ErrorResponse)
    | Submitted(request: RpcRequest, httpStatus: int, headers: ReplyHeaders)
    | Thrown(cause: Throwable)

  /** A list call made on a registry by the control paths. */
  datatype RegistryCall =
    | RegisterList(registry: Registry, services: seq<ServiceBean>)
    | UnregisterList(registry: Registry, services: seq<ServiceBean>)

  /** Everything the handler reads besides the request: the service map's
      values, the registry map's values (both in iteration order), whether
      a registry list call returns normally, the JSON body decoder, the
      per-parameter decoder, and the id the UUID generator would produce. */
  datatype Env = Env(
    table: seq<ServiceBean>,
    registries: seq<Registry>,
    listCallOk: bool,
    decode: string -> Option<RequestBody>,
    bind: (Json, string) -> Option<Json>,
    freshId: string)

  /** The routing result: outcome, new handler state, registry calls made. */
  datatype Routed = Routed(outcome: Outcome, handler: Handler, calls: seq<RegistryCall>)

  // ---------------------------------------------------------------------
  // sendError
  // ---------------------------------------------------------------------

  const NoCacheHeaders: ReplyHeaders := ReplyHeaders("", "", "", "*", "no-cache", "no-cache", "-1", false)

  /** `sendError`: a 502 reply whose body reports failure with exception `e`,
      returnType ConnectException, and which echoes the request's
      correlation headers (empty when absent). */
  function SendError(req: HttpRequest, e: Exception): (resp: ErrorResponse)
    ensures resp.httpStatus == HttpBadGateway && !resp.success
    ensures resp.returnType == ConnectExceptionClass && resp.exception == e
    ensures resp.requestId == req.headers.requestId.GetOr("")
    ensures resp.headers.requestId == req.headers.requestId.GetOr("")
    ensures resp.headers.serviceClass == req.headers.serviceClass.GetOr("")
    ensures resp.headers.methodName == req.headers.methodName.GetOr("")
    ensures resp.headers.(requestId := "", serviceClass := "", methodName := "") == NoCacheHeaders
  {
    var id := req.headers.requestId.GetOr("");
    ErrorResponse(HttpBadGateway, id, false, e, ConnectExceptionClass,
      NoCacheHeaders.(requestId := id,
                      serviceClass := req.headers.serviceClass.GetOr(""),
                      methodName := req.headers.methodName.GetOr("")))
  }

  // ---------------------------------------------------------------------
  // parseParams
  // ---------------------------------------------------------------------

  /** Whether raw parameters `i..` bind to the declared types: none are
      needed, or the list is present, long enough, and each decodes. */
  predicate BindableFrom(raw: Option<seq<Json>>, types: seq<string>, bind: (Json, string) -> Option<Json>, i: nat) {
    i >= |types| ||
    (raw.Some? && |raw.value| >= |types| &&
     forall k | i <= k < |types| :: bind(raw.value[k], types[k]).Some?)
  }

  /** The argument loop of `parseParams` from index `i`: argument k is raw
      parameter k decoded to declared type k; the first index that is
      missing or does not decode raises. Extra raw parameters are ignored. */
  function BindFrom(raw: Option<seq<Json>>, types: seq<string>, bind: (Json, string) -> Option<Json>, i: nat)
    : (r: Result<seq<Json>, Throwable>)
    requires i <= |types|
    ensures r.Success? <==> BindableFrom(raw, types, bind, i)
    ensures r.Success? ==> |r.value| == |types| - i
    ensures r.Success? ==> forall k | 0 <= k < |r.value| :: Some(r.value[k]) == bind(raw.value[i + k], types[i + k])
    ensures r.Failure? ==> r.error.NullParameters? || r.error.ParameterMissing? || r.error.ParameterUnreadable?
    decreases |types| - i
  {
    if i == |types| then Success([])
    else if raw.None? then Failure(NullParameters)
    else if i >= |raw.value| then Failure(ParameterMissing(i))
    else
      match bind(raw.value[i], types[i])
      case None => Failure(ParameterUnreadable(i))
      case Some(v) =>
        match BindFrom(raw, types, bind, i + 1)
        case Failure(e) => Failure(e)
        case Success(rest) => Success([v] + rest)
  }

  /** The success reply's headers: they echo the built request. */
  function SuccessHeaders(rq: RpcRequest, keepAlive: bool): (hs: ReplyHeaders)
    ensures hs.requestId == rq.requestId && hs.serviceClass == rq.className && hs.methodName == rq.methodName
    ensures hs.keepAlive == keepAlive
    ensures hs.(requestId := "", serviceClass := "", methodName := "", keepAlive := false) == NoCacheHeaders
  {
    NoCacheHeaders.(requestId := rq.requestId, serviceClass := rq.className,
                    methodName := rq.methodName, keepAlive := keepAlive)
  }

  /** `parseParams` plus the submission decision of `channelRead0`: resolve
      the method by name, bind the arguments, default the request id. */
  function ParseParams(req: HttpRequest, b: RequestBody, serviceName: string, methodName: string,
                       target: TargetClass, env: Env): (o: Outcome)
    requires |env.freshId| > 0
    ensures o.ErrorReply? <==> FindMethod(target.methods, methodName).None?
    ensures o.ErrorReply? ==>
      o.response == SendError(req, Exception(RpcException, "Method [" + methodName + "] not found."))
    ensures FindMethod(target.methods, methodName).Some? ==>
      var m := FindMethod(target.methods, methodName).value;
      && (o.Thrown? <==> BindFrom(b.parameters, m.parameterTypes, env.bind, 0).Failure?)
      && (o.Thrown? ==> o.cause == BindFrom(b.parameters, m.parameterTypes, env.bind, 0).error)
      && (o.Submitted? ==>
            && o.request.parameterTypes == m.parameterTypes
            && o.request.returnType == m.returnType
            && BindFrom(b.parameters, m.parameterTypes, env.bind, 0) == Success(o.request.parameters))
    ensures o.Submitted? ==>
      && o.httpStatus == HttpOk
      && o.request.className == serviceName
      && o.request.methodName == methodName
      && o.request.context == b.context
      && |o.request.parameters| == |o.request.parameterTypes|
      && o.request.requestId == b.requestId.GetOr(env.freshId)
      && (b.requestId.None? ==> |o.request.requestId| > 0)
      && o.headers == SuccessHeaders(o.request, req.keepAlive)
    ensures o.StatusReply? == false
  {
    match FindMethod(target.methods, methodName)
    case None => ErrorReply(SendError(req, Exception(RpcException, "Method [" + methodName + "] not found.")))
    case Some(m) =>
      match BindFrom(b.parameters, m.parameterTypes, env.bind, 0)
      case Failure(e) => Thrown(e)
      case Success(args) =>
        var id := if b.requestId.Some? then b.requestId.value else env.freshId;
        var rq := RpcRequest(id, serviceName, m.name, b.context, m.parameterTypes, m.returnType, args);
        Submitted(rq, HttpOk, SuccessHeaders(rq, req.keepAlive))
  }

  // ---------------------------------------------------------------------
  // channelRead0
  // ---------------------------------------------------------------------

  /** The data path after the offline and path checks: body, decoding,
      service and method names, service, bean, method, in that order. */
  function Dispatch(req: HttpRequest, env: Env): (o: Outcome)
    requires |env.freshId| > 0
    ensures o.StatusReply? == false
  {
    if |req.body| == 0 then
      ErrorReply(SendError(req, Exception(RpcException, "Request body not is empty.")))
    else
      match env.decode(req.body)
      case None => ErrorReply(SendError(req, Exception(RpcException, "Unable to identify the request format.")))
      case Some(b) =>
        if IsEmpty(b.service) then ErrorReply(SendError(req, Exception(RpcException, "Service not is null.")))
        else if IsEmpty(b.methodName) then ErrorReply(SendError(req, Exception(RpcException, "Method not is null.")))
        else
          var name := b.service.value;
          match Lookup(env.table, name)
          case None => ErrorReply(SendError(req, Exception(RpcException, "Not register service [" + name + "].")))
          case Some(sb) =>
            if sb.target.None? then ErrorReply(SendError(req, Exception(RpcException, "Not found bean [" + name + "].")))
            else ParseParams(req, b, name, b.methodName.value, sb.target.value, env)
  }

  /** `channelRead0`: route one request. */
  function Route(h: Handler, req: HttpRequest, env: Env): (r: Routed)
    requires |env.freshId| > 0
    ensures req.path == StatusPath ==>
      r == Routed(StatusReply(HttpOk, Name(if h.offline then Offline else Online)), h, [])
    ensures r.handler.offline <==> req.path == OfflinePath || (req.path != OnlinePath && h.offline)
    ensures r.handler.fired == h.fired + (if req.path == OfflinePath then [ServerOffline] else [])
    ensures !IsControlPath(req.path) ==> r.calls == []
    ensures r.outcome.StatusReply? ==> IsControlPath(req.path) && r.outcome.httpStatus == HttpOk
    ensures r.outcome.ErrorReply? ==> !IsControlPath(req.path)
    ensures r.outcome.Submitted? ==> req.path == RpcPath && !h.offline
    ensures h.offline && !IsControlPath(req.path) ==>
      r.outcome == ErrorReply(SendError(req, Exception(ConnectException, OfflineMessage)))
  {
    if req.path == StatusPath then
      Routed(StatusReply(HttpOk, Name(if h.offline then Offline else Online)), h, [])
    else if req.path == OfflinePath then
      var h' := GoOffline(h);
      if |env.registries| == 0 then Routed(Thrown(NoRegistry), h', [])
      else
        var call := UnregisterList(env.registries[0], env.table);
        if !env.listCallOk then Routed(Thrown(RegistryCallFailed), h', [call])
        else Routed(StatusReply(HttpOk, Name(Offline)), h', [call])
    else if req.path == OnlinePath then
      var h' := GoOnline(h);
      if |env.registries| == 0 then Routed(Thrown(NoRegistry), h', [])
      else
        var call := RegisterList(env.registries[0], env.table);
        if !env.listCallOk then Routed(Thrown(RegistryCallFailed), h', [call])
        else Routed(StatusReply(HttpOk, Name(Online)), h', [call])
    else if h.offline then
      Routed(ErrorReply(SendError(req, Exception(ConnectException, OfflineMessage))), h, [])
    else if req.path != RpcPath then
      Routed(ErrorReply(SendError(req, Exception(RpcException, "Bad request"))), h, [])
    else
      Routed(Dispatch(req, env), h, [])
  }

  // ---------------------------------------------------------------------
  // Properties of the control paths
  // ---------------------------------------------------------------------

  /** `/status` is always answered with 200, and reports OFFLINE exactly
      when the flag is set. */
  lemma StatusReportsFlag(h: Handler, req: HttpRequest, env: Env)
    requires |env.freshId| > 0 && req.path == StatusPath
    ensures Route(h, req, env).outcome.StatusReply?
    ensures Route(h, req, env).outcome.httpStatus == 200
    ensures FromName(Route(h, req, env).outcome.status) == Some(Offline) <==> h.offline
    ensures FromName(Route(h, req, env).outcome.status) == Some(Online) <==> !h.offline
  {
  }

  /** `/offline` with at least one registry: flag set, SERVER_OFFLINE fired,
      every bean of the service map unregistered on the first registry, and
      OFFLINE reported when that call returns. */
  lemma OfflinePathEffect(h: Handler, req: HttpRequest, env: Env)
    requires |env.freshId| > 0 && req.path == OfflinePath && |env.registries| > 0
    ensures Route(h, req, env).handler == GoOffline(h)
    ensures Route(h, req, env).calls == [UnregisterList(env.registries[0], env.table)]
    ensures env.listCallOk ==> Route(h, req, env).outcome == StatusReply(200, "OFFLINE")
    ensures !env.listCallOk ==> Route(h, req, env).outcome == Thrown(RegistryCallFailed)
  {
  }

  /** `/online` with at least one registry: flag cleared, no event, every
      bean registered on the first registry, ONLINE reported. */
  lemma OnlinePathEffect(h: Handler, req: HttpRequest, env: Env)
    requires |env.freshId| > 0 && req.path == OnlinePath && |env.registries| > 0
    ensures Route(h, req, env).handler == Handler(false, h.fired)
    ensures Route(h, req, env).calls == [RegisterList(env.registries[0], env.table)]
    ensures env.listCallOk ==> Route(h, req, env).outcome == StatusReply(200, "ONLINE")
  {
  }

  /** With an empty registry map `/offline` and `/online` raise — after the
      flag has already been changed (and, for `/offline`, the event fired). */
  lemma ControlPathWithoutRegistry(h: Handler, req: HttpRequest, env: Env)
    requires |env.freshId| > 0 && (req.path == OfflinePath || req.path == OnlinePath)
    requires |env.registries| == 0
    ensures Route(h, req, env).outcome == Thrown(NoRegistry)
    ensures Route(h, req, env).handler == (if req.path == OfflinePath then GoOffline(h) else GoOnline(h))
    ensures Route(h, req, env).calls == []
  {
  }

  /** Each `/offline` request repeats the unregister call and the event,
      even when the node is already offline. */
  lemma RepeatedOfflineRepeatsEffects(h: Handler, req: HttpRequest, env: Env)
    requires |env.freshId| > 0 && req.path == OfflinePath && |env.registries| > 0 && env.listCallOk
    ensures var r1 := Route(h, req, env);
      var r2 := Route(r1.handler, req, env);
      && r2.outcome == r1.outcome
      && r2.handler.offline == r1.handler.offline
      && r2.calls == r1.calls
      && |r2.handler.fired| == |h.fired| + 2
  {
  }

  /** While offline, every path other than the three control paths gets the
      offline error — an unknown path included — and nothing changes. */
  lemma OfflineRejectsDataPath(h: Handler, req: HttpRequest, env: Env)
    requires |env.freshId| > 0 && h.offline && !IsControlPath(req.path)
    ensures Route(h, req, env) ==
      Routed(ErrorReply(SendError(req, Exception(ConnectException, "The server has been offline."))), h, [])
  {
  }

  /** Online, a path that is neither a control path nor `/rpc` is a bad request. */
  lemma UnknownPathIsBadRequest(h: Handler, req: HttpRequest, env: Env)
    requires |env.freshId| > 0 && !h.offline && !IsControlPath(req.path) && req.path != RpcPath
    ensures Route(h, req, env) == Routed(ErrorReply(SendError(req, Exception(RpcException, "Bad request"))), h, [])
  {
  }

  // ---------------------------------------------------------------------
  // The /rpc check chain, stated as an ordered list of checks
  // ---------------------------------------------------------------------

  /** The checks of the data path, in the order the handler makes them. */
  datatype Check = BodyPresent | BodyParsed | ServiceNamed | MethodNamed | ServiceRegistered | BeanPresent | MethodFound

  const RpcChecks: seq<Check> :=
    [BodyPresent, BodyParsed, ServiceNamed, MethodNamed, ServiceRegistered, BeanPresent, MethodFound]

  /** The decoded service name, or "" when there is none. */
  function ServiceOf(req: HttpRequest, env: Env): string {
    var b := env.decode(req.body);
    if b.Some? && b.value.service.Some? then b.value.service.value else ""
  }

  /** The decoded method name, or "" when there is none. */
  function MethodOf(req: HttpRequest, env: Env): string {
    var b := env.decode(req.body);
    if b.Some? && b.value.methodName.Some? then b.value.methodName.value else ""
  }

  /** Whether check `c` passes, each stated on its own. */
  predicate Passes(c: Check, req: HttpRequest, env: Env) {
    var b := env.decode(req.body);
    var sb := Lookup(env.table, ServiceOf(req, env));
    match c
    case BodyPresent => req.body != ""
    case BodyParsed => b.Some?
    case ServiceNamed => ServiceOf(req, env) != ""
    case MethodNamed => MethodOf(req, env) != ""
    case ServiceRegistered => sb.Some?
    case BeanPresent => sb.Some? && sb.value.target.Some?
    case MethodFound => ResolvedMethod(req, env).Some?
  }

  /** The method the decoded names resolve to, if the service, its bean and
      a method of that name all exist. */
  function ResolvedMethod(req: HttpRequest, env: Env): Option<MethodSig> {
    var sb := Lookup(env.table, ServiceOf(req, env));
    if sb.Some? && sb.value.target.Some? then FindMethod(sb.value.target.value.methods, MethodOf(req, env))
    else None
  }

  /** The exception a failing check reports. */
  function Rejection(c: Check, req: HttpRequest, env: Env): Exception {
    match c
    case BodyPresent => Exception(RpcException, "Request body not is empty.")
    case BodyParsed => Exception(RpcException, "Unable to identify the request format.")
    case ServiceNamed => Exception(RpcException, "Service not is null.")
    case MethodNamed => Exception(RpcException, "Method not is null.")
    case ServiceRegistered => Exception(RpcException, "Not register service [" + ServiceOf(req, env) + "].")
    case BeanPresent => Exception(RpcException, "Not found bean [" + ServiceOf(req, env) + "].")
    case MethodFound => Exception(RpcException, "Method [" + MethodOf(req, env) + "] not found.")
  }

  /** On `/rpc` the first failing check decides the error reply, and nothing
      is submitted, no state changes and no registry is called. */
  lemma {:induction false} FirstFailingCheckDecides(h: Handler, req: HttpRequest, env: Env, i: nat)
    requires |env.freshId| > 0 && !h.offline && req.path == RpcPath
    requires i < |RpcChecks| && !Passes(RpcChecks[i], req, env)
    requires forall j | 0 <= j < i :: Passes(RpcChecks[j], req, env)
    ensures Route(h, req, env) == Routed(ErrorReply(SendError(req, Rejection(RpcChecks[i], req, env))), h, [])
  {
    var b := env.decode(req.body);
    if i >= 1 {
      assert Passes(RpcChecks[0], req, env);
    }
    if i >= 2 {
      assert Passes(RpcChecks[1], req, env);
    }
    if i >= 3 {
      assert Passes(RpcChecks[2], req, env);
      assert !IsEmpty(b.value.service);
    }
    if i >= 4 {
      assert Passes(RpcChecks[3], req, env);
      assert !IsEmpty(b.value.methodName);
    }
    if i >= 5 {
      assert Passes(RpcChecks[4], req, env);
    }
    if i >= 6 {
      assert Passes(RpcChecks[5], req, env);
    }
  }

  /** When every check passes, the request is submitted exactly when its
      parameters bind, and otherwise the handler raises. */
  lemma {:induction false} AllChecksPass(h: Handler, req: HttpRequest, env: Env)
    requires |env.freshId| > 0 && !h.offline && req.path == RpcPath
    requires forall j | 0 <= j < |RpcChecks| :: Passes(RpcChecks[j], req, env)
    ensures env.decode(req.body).Some? && ResolvedMethod(req, env).Some?
    ensures var r := Route(h, req, env);
      && r.handler == h && r.calls == []
      && (r.outcome.Submitted? || r.outcome.Thrown?)
      && (r.outcome.Submitted? <==>
            BindableFrom(env.decode(req.body).value.parameters, ResolvedMethod(req, env).value.parameterTypes, env.bind, 0))
  {
    assert Passes(RpcChecks[0], req, env) && Passes(RpcChecks[1], req, env);
    assert Passes(RpcChecks[2], req, env) && Passes(RpcChecks[3], req, env);
    assert Passes(RpcChecks[4], req, env) && Passes(RpcChecks[5], req, env);
    assert Passes(RpcChecks[6], req, env);
  }

  /** A submitted request carries the requested service as class name, the
      resolved method's name, parameter and return types, the body's
      context, and as arguments the body's raw parameters bound to the
      method's parameter types; its id is the body's id, or the fresh one when the body has
      none; the 200 reply echoes id, service and method. */
  lemma SubmittedRequestShape(h: Handler, req: HttpRequest, env: Env)
    requires |env.freshId| > 0
    requires Route(h, req, env).outcome.Submitted?
    ensures env.decode(req.body).Some?
    ensures var o := Route(h, req, env).outcome;
      var b := env.decode(req.body).value;
      var sb := Lookup(env.table, b.service.value);
      && req.path == RpcPath && !h.offline
      && b.service.Some? && b.methodName.Some? && sb.Some? && sb.value.target.Some?
      && var m := FindMethod(sb.value.target.value.methods, b.methodName.value);
      && m.Some?
      && o.request.className == b.service.value
      && o.request.methodName == m.value.name
      && |o.request.parameters| == |m.value.parameterTypes|
      && o.request.parameterTypes == m.value.parameterTypes
      && o.request.returnType == m.value.returnType
      && o.request.context == b.context
      && BindFrom(b.parameters, m.value.parameterTypes, env.bind, 0) == Success(o.request.parameters)
      && o.request.requestId == (if b.requestId.Some? then b.requestId.value else env.freshId)
      && (b.requestId.None? ==> |o.request.requestId| > 0)
      && o.httpStatus == 200
      && o.headers.requestId == o.request.requestId
      && o.headers.serviceClass == o.request.className
      && o.headers.methodName == o.request.methodName
  {
  }
}

=== FILE: java_text.dfy ===
/** The string operations of the Java platform and of the project's own
    `StringUtils` that the server's decisions depend on. Strings are
    sequences of characters; a Java `null` string is `None`. */
module JavaText {
  import opened Results

  /** The project's own `StringUtils.isEmpty`, read as null or of length
      zero; whitespace is not treated as empty. */
  predicate IsEmpty(s: Option<string>) {
    s.None? || |s.value| == 0
  }

  /** `String.startsWith`: exact, case-sensitive prefix test. */
  predicate StartsWith(s: string, prefix: string) {
    |prefix| <= |s| && s[..|prefix|] == prefix
  }

  // ---------------------------------------------------------------------
  // String.split with a one-character separator
  // ---------------------------------------------------------------------

  /** Every piece between two separators, empty pieces included. */
  function Pieces(s: string, sep: char): (ps: seq<string>)
    ensures |ps| >= 1
    decreases |s|
  {
    if |s| == 0 then [""]
    else
      var rest := Pieces(s[1..], sep);
      if s[0] == sep then [""] + rest
      else [[s[0]] + rest[0]] + rest[1..]
  }

  /** The pieces glued back together with the separator. */
  function Join(ps: seq<string>, sep: char): string
    requires |ps| >= 1
  {
    if |ps| == 1 then ps[0] else ps[0] + [sep] + Join(ps[1..], sep)
  }

  /** Splitting loses nothing: the pieces hold no separator and join back to the input. */
  lemma {:induction false} PiecesJoin(s: string, sep: char)
    ensures Join(Pieces(s, sep), sep) == s
    ensures forall i | 0 <= i < |Pieces(s, sep)| :: sep !in Pieces(s, sep)[i]
    decreases |s|
  {
    if |s| > 0 {
      PiecesJoin(s[1..], sep);
      var rest := Pieces(s[1..], sep);
      if s[0] == sep {
        assert Pieces(s, sep)[1..] == rest;
        assert s == [s[0]] + s[1..];
      } else {
        var ps := Pieces(s, sep);
        assert ps[0] == [s[0]] + rest[0];
        forall i | 0 <= i < |ps|
          ensures sep !in ps[i]
        {
          if i > 0 {
            assert ps[i] == rest[i];
          }
        }
        if |rest| > 1 {
          assert ps[1..] == rest[1..];
          assert Join(rest, sep) == rest[0] + [sep] + Join(rest[1..], sep);
        }
        assert s == [s[0]] + s[1..];
      }
    }
  }

  /** A separator-free prefix followed by a separator contributes exactly one piece. */
  lemma {:induction false} PiecesAfterPrefix(a: string, b: string, sep: char)
    requires sep !in a
    ensures Pieces(a + [sep] + b, sep) == [a] + Pieces(b, sep)
    decreases |a|
  {
    if |a| == 0 {
      assert a + [sep] + b == [sep] + b;
      assert ([sep] + b)[1..] == b;
    } else {
      PiecesAfterPrefix(a[1..], b, sep);
      assert (a + [sep] + b)[1..] == a[1..] + [sep] + b;
      assert [a[0]] + a[1..] == a;
    }
  }

  /** A string without the separator is a single piece. */
  lemma {:induction false} PiecesOfPlain(a: string, sep: char)
    requires sep !in a
    ensures Pieces(a, sep) == [a]
    decreases |a|
  {
    if |a| > 0 {
      PiecesOfPlain(a[1..], sep);
      assert [a[0]] + a[1..] == a;
    }
  }

  /** Java removes the empty strings at the end of a split result. */
  function DropTrailingEmpty(ps: seq<string>): (r: seq<string>)
    ensures |r| <= |ps| && r == ps[..|r|]
    ensures forall i | |r| <= i < |ps| :: ps[i] == ""
    ensures |r| == 0 || r[|r| - 1] != ""
    decreases |ps|
  {
    if |ps| > 0 && ps[|ps| - 1] == "" then DropTrailingEmpty(ps[..|ps| - 1]) else ps
  }

  /** `String.split(":")` on a one-character separator: a string without the
      separator gives itself (so "" gives [""]), otherwise the pieces with the
      trailing empty ones removed. */
  function Split(s: string, sep: char): (parts: seq<string>)
    ensures forall i | 0 <= i < |parts| :: sep !in parts[i]
    ensures sep !in s ==> parts == [s]
    ensures sep in s ==> |parts| <= |Pieces(s, sep)| && parts == Pieces(s, sep)[..|parts|]
    ensures sep in s ==> |parts| == 0 || parts[|parts| - 1] != ""
    ensures sep in s ==> forall i | |parts| <= i < |Pieces(s, sep)| :: Pieces(s, sep)[i] == ""
  {
    PiecesJoin(s, sep);
    if sep !in s then [s] else DropTrailingEmpty(Pieces(s, sep))
  }

  /** "host:port" with separator-free non-empty port splits into exactly those two parts. */
  lemma SplitHostPort(host: string, port: string, sep: char)
    requires sep !in host && sep !in port && port != ""
    ensures Split(host + [sep] + port, sep) == [host, port]
  {
    PiecesAfterPrefix(host, port, sep);
    PiecesOfPlain(port, sep);
    assert (host + [sep] + port)[|host|] == sep;
  }

  // ---------------------------------------------------------------------
  // Integer.parseInt and Integer.toString, radix 10
  // ---------------------------------------------------------------------

  const MinInt: int := -0x8000_0000
  const MaxInt: int := 0x7fff_ffff

  predicate IsDigit(c: char) {
    '0' <= c <= '9'
  }

  predicate AllDigits(s: string) {
    forall i | 0 <= i < |s| :: IsDigit(s[i])
  }

  function DigitValue(c: char): nat
    requires IsDigit(c)
  {
    (c as int) - ('0' as int)
  }

  function DigitChar(d: nat): (c: char)
    requires d < 10
    ensures IsDigit(c) && DigitValue(c) == d
  {
    (('0' as int) + d) as char
  }

  /** The value of a string of decimal digits, most significant first. */
  function DigitsValue(ds: string): nat
    requires AllDigits(ds)
    decreases |ds|
  {
    if |ds| == 0 then 0 else DigitsValue(ds[..|ds| - 1]) * 10 + DigitValue(ds[|ds| - 1])
  }

  /** The text after an optional leading '+' or '-'. */
  function Magnitude(s: string): string
    requires |s| > 0
  {
    if s[0] == '-' || s[0] == '+' then s[1..] else s
  }

  /** An optional sign followed by at least one decimal digit. */
  predicate IsDecimal(s: string) {
    |s| > 0 && |Magnitude(s)| > 0 && AllDigits(Magnitude(s))
  }

  /** The value a decimal numeral denotes, without any range limit. */
  function DecimalValue(s: string): int
    requires IsDecimal(s)
  {
    if s[0] == '-' then -(DigitsValue(Magnitude(s)) as int) else DigitsValue(Magnitude(s))
  }

  /** `Integer.parseInt(s)`: an optional '+' or '-' and at least one digit,
      with a value inside the 32-bit range; anything else raises
      NumberFormatException, here `None`. */
  function ParseInt(s: string): (r: Option<int>)
    ensures r.Some? <==> IsDecimal(s) && MinInt <= DecimalValue(s) <= MaxInt
    ensures r.Some? ==> r.value == DecimalValue(s)
    ensures r.Some? ==> MinInt <= r.value <= MaxInt
    ensures r.Some? ==> |s| > 0 && (IsDigit(s[0]) || s[0] == '+' || s[0] == '-')
    ensures r.Some? && r.value < 0 ==> s[0] == '-'
  {
    if |s| == 0 then None
    else
      var signed := s[0] == '-' || s[0] == '+';
      var digits := if signed then s[1..] else s;
      if |digits| == 0 || !AllDigits(digits) then None
      else
        var v: int := if s[0] == '-' then -(DigitsValue(digits) as int) else DigitsValue(digits);
        if MinInt <= v <= MaxInt then Some(v) else None
  }

  /** Canonical decimal digits of a natural number. */
  function NatToString(n: nat): (s: string)
    ensures |s| >= 1 && AllDigits(s)
    ensures DigitsValue(s) == n
    ensures |s| > 1 ==> s[0] != '0'
    decreases n
  {
    if n < 10 then [DigitChar(n)]
    else
      var prefix := NatToString(n / 10);
      var s := prefix + [DigitChar(n % 10)];
      assert s[..|s| - 1] == prefix;
      s
  }

  /** `Integer.toString(n)`: a minus sign for negatives, then canonical digits. */
  function IntToString(n: int): (s: string)
    ensures |s| >= 1
    ensures s[0] == '-' <==> n < 0
  {
    if n < 0 then "-" + NatToString(-n) else NatToString(n)
  }

  /** Printing an int and parsing it back gives the same int. */
  lemma ParseIntToString(n: int)
    requires MinInt <= n <= MaxInt
    ensures ParseInt(IntToString(n)) == Some(n)
  {
    var s := IntToString(n);
    if n < 0 {
      assert s[1..] == NatToString(-n);
    } else {
      assert IsDigit(s[0]);
    }
  }

  // ---------------------------------------------------------------------
  // String.equalsIgnoreCase against a lower-case ASCII constant
  // ---------------------------------------------------------------------

  predicate IsLowerAsciiLetter(c: char) {
    'a' <= c <= 'z'
  }

  predicate IsLowerAsciiWord(s: string) {
    forall i | 0 <= i < |s| :: IsLowerAsciiLetter(s[i])
  }

  function UpperAscii(c: char): (u: char)
    requires IsLowerAsciiLetter(c)
    ensures 'A' <= u <= 'Z'
  {
    ((c as int) - 32) as char
  }

  /** Java's case-insensitive comparison of `c` with a lower-case ASCII
      letter `t` other than 'i' (for 'i' Java also admits U+0130 and U+0131,
      which this does not list; the codec names hold no 'i'): equal after
      upper-casing, or after upper- then lower-casing. Besides the two ASCII
      forms this admits KELVIN SIGN for 'k' (it lower-cases to 'k') and LATIN
      SMALL LETTER LONG S for 's' (it upper-cases to 'S'). */
  predicate CharMatchesIgnoringCase(c: char, t: char)
    requires IsLowerAsciiLetter(t) && t != 'i'
  {
    || c == t
    || c == UpperAscii(t)
    || (t == 'k' && c == '\U{212A}')
    || (t == 's' && c == '\U{017F}')
  }

  /** `target.equalsIgnoreCase(s)` for a lower-case ASCII `target` without 'i'. */
  predicate EqualsIgnoreCase(s: string, target: string)
    requires IsLowerAsciiWord(target) && 'i' !in target
  {
    |s| == |target| && forall i | 0 <= i < |s| :: CharMatchesIgnoringCase(s[i], target[i])
  }
}

=== FILE: lifecycle.dfy ===
/** The lifecycle of `SimpleRpcServer` as a sequential state machine:
    startup (configuration, bind, registration of every service), request
    submission and the in-flight bookkeeping of the worker pool, and the
    once-only `close()` with its teardown order. Registry backends are
    oracles that say how each call ends. */
module Lifecycle {
  import opened Results
  import opened JavaText
  import opened Services
  import opened ServerConfig
  import opened HttpRouter

  // ---------------------------------------------------------------------
  // Startup registration
  // ---------------------------------------------------------------------

  /** How one `register` call ends: normally, with an RpcException (caught
      by the loop), or with any other exception (which escapes the loop). */
  datatype RegisterOutcome = Registered | RpcFailure | OtherFailure

  /** An entry of the service status table. */
  datatype StatusEntry = StatusEntry(serviceName: string, weight: int)

  /** What one iteration of the registration loop did with a bean. */
  datatype BeanStep = Skipped | Added | Refused | Aborted

  datatype StepResult = StepResult(bean: ServiceBean, outcome: BeanStep)

  /** One iteration: beans that use no registry are left alone; the others
      are prepared (registry, appId, address, elastic IP) and then
      registered. A missing registry makes `register` run on null and the
      NullPointerException escapes, as does any exception other than
      RpcException. */
  function RegisterStep(f: ServerFields, regs: map<string, Registry>,
                        register: (Registry, ServiceBean) -> RegisterOutcome, b: ServiceBean): (s: StepResult)
    ensures s.outcome == Skipped <==> !UsesRegistry(b, regs)
    ensures s.bean == (if s.outcome == Skipped then b else Prepare(f, b))
    ensures s.outcome == Added <==>
      UsesRegistry(b, regs) && RegistryOf(b, regs).Some? && register(RegistryOf(b, regs).value, Prepare(f, b)) == Registered
    ensures s.outcome == Aborted <==>
      UsesRegistry(b, regs) && (RegistryOf(b, regs).None? || register(RegistryOf(b, regs).value, Prepare(f, b)) == OtherFailure)
  {
    if !UsesRegistry(b, regs) then StepResult(b, Skipped)
    else
      var p := Prepare(f, b);
      match RegistryOf(b, regs)
      case None => StepResult(p, Aborted)
      case Some(reg) =>
        match register(reg, p)
        case Registered => StepResult(p, Added)
        case RpcFailure => StepResult(p, Refused)
        case OtherFailure => StepResult(p, Aborted)
  }

  /** The status-table entries the loop adds for `beans`, in order. */
  function AddedEntries(f: ServerFields, regs: map<string, Registry>,
                        register: (Registry, ServiceBean) -> RegisterOutcome, beans: seq<ServiceBean>): seq<StatusEntry>
    decreases |beans|
  {
    if |beans| == 0 then []
    else
      var last := beans[|beans| - 1];
      AddedEntries(f, regs, register, beans[..|beans| - 1])
        + (if RegisterStep(f, regs, register, last).outcome == Added then [StatusEntry(last.serviceName, f.weight)] else [])
  }

  /** A status-table entry exists only for a bean whose register returned normally. */
  lemma {:induction false} AddedEntriesAreRegistered(f: ServerFields, regs: map<string, Registry>,
                                                     register: (Registry, ServiceBean) -> RegisterOutcome,
                                                     beans: seq<ServiceBean>, e: StatusEntry)
    requires e in AddedEntries(f, regs, register, beans)
    ensures e.weight == f.weight
    ensures exists j | 0 <= j < |beans| ::
      beans[j].serviceName == e.serviceName && RegisterStep(f, regs, register, beans[j]).outcome == Added
    decreases |beans|
  {
    var init := beans[..|beans| - 1];
    var last := beans[|beans| - 1];
    if e in AddedEntries(f, regs, register, init) {
      AddedEntriesAreRegistered(f, regs, register, init, e);
      var j :| 0 <= j < |init| && init[j].serviceName == e.serviceName
        && RegisterStep(f, regs, register, init[j]).outcome == Added;
      assert beans[j] == init[j];
    } else {
      assert e == StatusEntry(last.serviceName, f.weight);
      assert RegisterStep(f, regs, register, beans[|beans| - 1]).outcome == Added;
    }
  }

  /** One more bean adds its entry, if any, at the end of the table. */
  lemma AddedEntriesStep(f: ServerFields, regs: map<string, Registry>,
                         register: (Registry, ServiceBean) -> RegisterOutcome, beans: seq<ServiceBean>, i: nat)
    requires i < |beans|
    ensures AddedEntries(f, regs, register, beans[..i + 1]) ==
      AddedEntries(f, regs, register, beans[..i])
        + (if RegisterStep(f, regs, register, beans[i]).outcome == Added
           then [StatusEntry(beans[i].serviceName, f.weight)] else [])
  {
    assert beans[..i + 1][..i] == beans[..i];
  }

  /** The registration loop of `bindRpcServer` over the service map's
      values. It stops at the first bean whose exception escapes
      (`abortedAt`); an RpcException only skips that bean's status entry. */
  method RegisterAtStartup(f: ServerFields, regs: map<string, Registry>,
                           register: (Registry, ServiceBean) -> RegisterOutcome, beans: seq<ServiceBean>)
    returns (beans': seq<ServiceBean>, table: seq<StatusEntry>, abortedAt: Option<nat>)
    ensures |beans'| == |beans|
    ensures abortedAt.Some? ==>
      abortedAt.value < |beans| && RegisterStep(f, regs, register, beans[abortedAt.value]).outcome == Aborted
    ensures var n := if abortedAt.Some? then abortedAt.value else |beans|;
      forall j | 0 <= j < n :: RegisterStep(f, regs, register, beans[j]).outcome != Aborted
    ensures var n := if abortedAt.Some? then abortedAt.value + 1 else |beans|;
      && (forall j | 0 <= j < n :: beans'[j] == RegisterStep(f, regs, register, beans[j]).bean)
      && (forall j | n <= j < |beans| :: beans'[j] == beans[j])
      && table == AddedEntries(f, regs, register, beans[..n])
  {
    beans' := beans;
    table := [];
    abortedAt := None;
    var i := 0;
    while i < |beans| && abortedAt.None?
      invariant 0 <= i <= |beans|
      invariant |beans'| == |beans|
      invariant abortedAt.Some? ==>
        i >= 1 && abortedAt.value == i - 1 && RegisterStep(f, regs, register, beans[i - 1]).outcome == Aborted
      invariant forall j | 0 <= j < (if abortedAt.Some? then i - 1 else i) ::
        RegisterStep(f, regs, register, beans[j]).outcome != Aborted
      invariant forall j | 0 <= j < i :: beans'[j] == RegisterStep(f, regs, register, beans[j]).bean
      invariant forall j | i <= j < |beans| :: beans'[j] == beans[j]
      invariant table == AddedEntries(f, regs, register, beans[..i])
    {
      var step := RegisterStep(f, regs, register, beans[i]);
      beans' := beans'[i := step.bean];
      AddedEntriesStep(f, regs, register, beans, i);
      if step.outcome == Added {
        table := table + [StatusEntry(beans[i].serviceName, f.weight)];
      }
      if step.outcome == Aborted {
        abortedAt := Some(i);
      }
      i := i + 1;
    }
    assert beans[..|beans|] == beans;
  }

  // ---------------------------------------------------------------------
  // Server state
  // ---------------------------------------------------------------------

  type FutureId = nat

  /** The two `submit` variants: the binary transport and the HTTP one. */
  datatype Transport = Tcp | Http

  /** Where the thread running `close()` is: not started, polling until the
      futures it iterates over are done, or finished. */
  datatype ClosePhase = Running | Draining(waitFor: set<FutureId>) | Finished

  /** The teardown steps of `close()`, in the order they happen. */
  datatype Teardown =
    | WentOffline
    | AllDone(futures: set<FutureId>)
    | ExecutorShutdown
    | Unregistered(serviceName: string, ok: bool)

  /** The server: handler flag and events, service map values, registry map,
      services currently registered, the `isClosed` guard, the close phase,
      the worker pool, and the in-flight list of futures with the futures
      that are done, have a reply being written, or had it written. */
  datatype Server = Server(
    handler: Handler,
    services: seq<ServiceBean>,
    registries: map<string, Registry>,
    registered: set<string>,
    closed: bool,
    phase: ClosePhase,
    executorShutdown: bool,
    inflight: set<FutureId>,
    httpFutures: set<FutureId>,
    done: set<FutureId>,
    writing: set<FutureId>,
    written: seq<FutureId>,
    teardown: seq<Teardown>)

  /** The consistency the transitions below maintain. */
  predicate Inv(s: Server) {
    && s.writing <= s.inflight * s.done
    && (forall id | id in s.done && id !in s.inflight :: id in s.written)
    && (forall id | id in s.written :: id in s.done && id !in s.inflight)
    && (s.closed <==> !s.phase.Running?)
    && (s.executorShutdown <==> s.phase.Finished?)
  }

  // ---------------------------------------------------------------------
  // Startup
  // ---------------------------------------------------------------------

  const ConfigServiceName: string := "com.kongzhong.mrpc.embedded.ConfigService"

  /** `rpcMapping.addServiceBean`: put into the map keyed by service name,
      replacing a bean of the same name or adding a new entry at the end. */
  function PutService(table: seq<ServiceBean>, b: ServiceBean): (t: seq<ServiceBean>)
    requires UniqueNames(table)
    ensures UniqueNames(t)
    ensures Lookup(t, b.serviceName) == Some(b)
    ensures b in t
    ensures forall i | 0 <= i < |table| && table[i].serviceName != b.serviceName :: table[i] in t
    ensures forall x | x in t :: x == b || (x in table && x.serviceName != b.serviceName)
    decreases |table|
  {
    if |table| == 0 then [b]
    else if table[0].serviceName == b.serviceName then [b] + table[1..]
    else [table[0]] + PutService(table[1..], b)
  }

  /** `registerEmbedded`: the built-in configuration service, carrying the
      server-level appId, address and elastic IP. */
  function EmbeddedBean(f: ServerFields, target: TargetClass): ServiceBean {
    ServiceBean(ConfigServiceName, Some(target), f.appId, f.address, f.elasticIp, None)
  }

  /** How `startServer` ends. An abort inside `bindRpcServer` is caught and
      logged, but what the failed start had already done stays in place:
      the (possibly rewritten) address, the service map with the embedded
      bean and the beans prepared so far, and their status entries. */
  datatype StartResult =
    | InitFailed(initError: InitError)
    | StartAborted(startError: StartError, fields: ServerFields, services: seq<ServiceBean>, statusTable: seq<StatusEntry>)
    | Started(server: Server, fields: ServerFields, codec: Codec, statusTable: seq<StatusEntry>)

  /** The highest TCP port; `bind` rejects any port outside 0..MaxPort. */
  const MaxPort: int := 65535

  /** Whether `bind(host, port)` succeeds: a host was found, the port is a
      valid TCP port, and the socket could be bound (`bindOk`). */
  predicate Binds(t: BindTarget, bindOk: bool) {
    t.host.Some? && 0 <= t.port <= MaxPort && bindOk
  }

  /** The server fields once `bindRpcServer` has rewritten the address. */
  function BoundFields(init: Initialized, t: BindTarget): ServerFields {
    init.fields.(address := Some(t.address))
  }

  /** No bean's registration aborts the loop. */
  predicate RegistersAll(f: ServerFields, regs: map<string, Registry>,
                         register: (Registry, ServiceBean) -> RegisterOutcome, services: seq<ServiceBean>) {
    forall j | 0 <= j < |services| :: RegisterStep(f, regs, register, services[j]).outcome != Aborted
  }

  /** Bean `j` is the first whose registration aborts the loop. */
  predicate FirstAbort(f: ServerFields, regs: map<string, Registry>,
                       register: (Registry, ServiceBean) -> RegisterOutcome, services: seq<ServiceBean>, j: nat) {
    && j < |services|
    && RegisterStep(f, regs, register, services[j]).outcome == Aborted
    && forall k | 0 <= k < j :: RegisterStep(f, regs, register, services[k]).outcome != Aborted
  }

  /** At most one bean is the first to abort. */
  lemma FirstAbortUnique(f: ServerFields, regs: map<string, Registry>,
                         register: (Registry, ServiceBean) -> RegisterOutcome, services: seq<ServiceBean>, i: nat, j: nat)
    requires FirstAbort(f, regs, register, services, i) && FirstAbort(f, regs, register, services, j)
    ensures i == j
  {
  }

  /** The exception an aborting bean raises: a NullPointerException when its
      registry is missing, else the one `register` threw. */
  function AbortError(b: ServiceBean, regs: map<string, Registry>): (e: StartError)
    ensures e.RegistryMissing? <==> RegistryOf(b, regs).None?
    ensures e.RegistryMissing? || e.RegisterFailed?
    ensures e.serviceName == b.serviceName
  {
    if RegistryOf(b, regs).None? then RegistryMissing(b.serviceName) else RegisterFailed(b.serviceName)
  }

  /** The start aborted at bean `j`, the first to abort: its exception is
      reported, beans up to and including `j` have been prepared, later ones
      are untouched, and the status table holds the entries of the beans
      before `j`. */
  predicate AbortedAt(r: StartResult, f: ServerFields, regs: map<string, Registry>,
                      register: (Registry, ServiceBean) -> RegisterOutcome, services: seq<ServiceBean>, j: nat)
    requires j < |services|
  {
    && r.StartAborted?
    && r.startError == AbortError(services[j], regs)
    && r.fields == f
    && |r.services| == |services|
    && (forall k | 0 <= k <= j :: r.services[k] == RegisterStep(f, regs, register, services[k]).bean)
    && (forall k | j < k < |services| :: r.services[k] == services[k])
    && r.statusTable == AddedEntries(f, regs, register, services[..j])
  }

  /** The aborting bean adds no status entry. */
  lemma AbortedStepAddsNothing(f: ServerFields, regs: map<string, Registry>,
                               register: (Registry, ServiceBean) -> RegisterOutcome, services: seq<ServiceBean>, j: nat)
    requires j < |services| && RegisterStep(f, regs, register, services[j]).outcome == Aborted
    ensures AddedEntries(f, regs, register, services[..j + 1]) == AddedEntries(f, regs, register, services[..j])
  {
    assert services[..j + 1][..j] == services[..j];
  }

  /** `startServer`: `initConfig`, then inside `bindRpcServer`: parse the
      address, bind, add the embedded service, register every service, fire
      SERVER_ONLINE. An InitializeException escapes; every exception inside
      `bindRpcServer` is caught and only aborts the start. */
  method StartServer(f: ServerFields, regs: map<string, Registry>, codecLoads: bool, table: seq<ServiceBean>,
                     embedded: TargetClass, localHost: string, bindOk: bool,
                     register: (Registry, ServiceBean) -> RegisterOutcome, h: Handler)
    returns (r: StartResult)
    requires UniqueNames(table)
    ensures r.InitFailed? <==> InitConfig(f, regs, codecLoads).Failure?
    ensures r.InitFailed? ==> r.initError == InitConfig(f, regs, codecLoads).error
    ensures r.Started? <==>
      && InitConfig(f, regs, codecLoads).Success?
      && var init := InitConfig(f, regs, codecLoads).value;
      && var target := ParseBindAddress(init.fields.address, localHost);
      && target.Success? && Binds(target.value, bindOk)
      && var fields := BoundFields(init, target.value);
      && RegistersAll(fields, regs, register, PutService(table, EmbeddedBean(fields, embedded)))
    ensures InitConfig(f, regs, codecLoads).Success? ==>
      && var init := InitConfig(f, regs, codecLoads).value;
      && var target := ParseBindAddress(init.fields.address, localHost);
      && (init.fields.address.None? ==> r == StartAborted(NullAddress, init.fields, table, []))
      && (target.Failure? ==> r == StartAborted(target.error, init.fields, table, []))
      && (target.Failure? && init.fields.address.Some? ==> r.StartAborted? && r.startError.NumberFormat?)
      && (target.Success? && !Binds(target.value, bindOk) ==>
            r == StartAborted(BindFailed, BoundFields(init, target.value), table, []))
      && (target.Success? && Binds(target.value, bindOk) ==>
            var fields := BoundFields(init, target.value);
            var services := PutService(table, EmbeddedBean(fields, embedded));
            forall j: nat | FirstAbort(fields, regs, register, services, j) ::
              AbortedAt(r, fields, regs, register, services, j))
    ensures r.Started? ==>
      && var init := InitConfig(f, regs, codecLoads).value;
      && var target := ParseBindAddress(init.fields.address, localHost).value;
      && r.fields == BoundFields(init, target)
      && r.codec == init.codec
      && Inv(r.server)
      && !r.server.closed && !r.server.executorShutdown && r.server.phase == Running
      && r.server.inflight == {} && r.server.httpFutures == {} && r.server.done == {}
      && r.server.writing == {} && r.server.written == [] && r.server.teardown == []
      && r.server.handler == h.(fired := h.fired + [ServerOnline])
      && r.server.registries == regs
      && var services := PutService(table, EmbeddedBean(r.fields, embedded));
      && |r.server.services| == |services|
      && (forall j | 0 <= j < |services| ::
            r.server.services[j] == RegisterStep(r.fields, regs, register, services[j]).bean)
      && r.statusTable == AddedEntries(r.fields, regs, register, services)
      && r.server.registered == (set e | e in r.statusTable :: e.serviceName)
      && (forall e | e in r.statusTable :: e.weight == f.weight)
    ensures !bindOk ==> !r.Started?
  {
    var init := InitConfig(f, regs, codecLoads);
    if init.Failure? {
      return InitFailed(init.error);
    }
    var target := ParseBindAddress(init.value.fields.address, localHost);
    if target.Failure? {
      return StartAborted(target.error, init.value.fields, table, []);
    }
    var fields := BoundFields(init.value, target.value);
    if !Binds(target.value, bindOk) {
      return StartAborted(BindFailed, fields, table, []);
    }
    assert fields.weight == f.weight;
    r := PublishServices(fields, init.value.codec, regs, register, PutService(table, EmbeddedBean(fields, embedded)), h);
  }

  /** The part of `bindRpcServer` after a successful bind: run the
      registration loop over the service map and, unless a bean aborts it,
      fire SERVER_ONLINE and start serving with the registered beans. */
  method PublishServices(fields: ServerFields, codec: Codec, regs: map<string, Registry>,
                         register: (Registry, ServiceBean) -> RegisterOutcome, services: seq<ServiceBean>, h: Handler)
    returns (r: StartResult)
    ensures r.Started? || r.StartAborted?
    ensures r.Started? <==> RegistersAll(fields, regs, register, services)
    ensures forall j: nat | FirstAbort(fields, regs, register, services, j) ::
      AbortedAt(r, fields, regs, register, services, j)
    ensures r.Started? ==>
      && r.fields == fields
      && r.codec == codec
      && Inv(r.server)
      && !r.server.closed && !r.server.executorShutdown && r.server.phase == Running
      && r.server.inflight == {} && r.server.httpFutures == {} && r.server.done == {}
      && r.server.writing == {} && r.server.written == [] && r.server.teardown == []
      && r.server.handler == h.(fired := h.fired + [ServerOnline])
      && r.server.registries == regs
      && |r.server.services| == |services|
      && (forall j | 0 <= j < |services| ::
            r.server.services[j] == RegisterStep(fields, regs, register, services[j]).bean)
      && r.statusTable == AddedEntries(fields, regs, register, services)
      && r.server.registered == (set e | e in r.statusTable :: e.serviceName)
      && (forall e | e in r.statusTable :: e.weight == fields.weight)
  {
    var prepared, statusTable, abortedAt := RegisterAtStartup(fields, regs, register, services);
    if abortedAt.Some? {
      var j := abortedAt.value;
      assert FirstAbort(fields, regs, register, services, j);
      forall j': nat | FirstAbort(fields, regs, register, services, j')
        ensures j' == j
      {
        FirstAbortUnique(fields, regs, register, services, j, j');
      }
      assert !RegistersAll(fields, regs, register, services) by {
        assert RegisterStep(fields, regs, register, services[j]).outcome == Aborted;
      }
      AbortedStepAddsNothing(fields, regs, register, services, j);
      return StartAborted(AbortError(services[j], regs), fields, prepared, statusTable);
    }
    assert services[..|services|] == services;
    assert RegistersAll(fields, regs, register, services);
    forall e | e in statusTable
      ensures e.weight == fields.weight
    {
      AddedEntriesAreRegistered(fields, regs, register, services, e);
    }
    var registered := set e | e in statusTable :: e.serviceName;
    var server := Server(h.(fired := h.fired + [ServerOnline]), prepared, regs, registered,
                         false, Running, false, {}, {}, {}, {}, [], []);
    r := Started(server, fields, codec, statusTable);
  }

  // ---------------------------------------------------------------------
  // Submission and the in-flight list
  // ---------------------------------------------------------------------

  datatype Submission = Submission(server: Server, accepted: bool)

  /** `submit`: hand the task to the worker pool and add its future to the
      in-flight list. A pool that has been shut down rejects the task and
      nothing is recorded. */
  function Submit(s: Server, id: FutureId, t: Transport): (r: Submission)
    requires id !in s.inflight && id !in s.done
    ensures r.accepted <==> !s.executorShutdown
    ensures r.accepted ==> r.server.inflight == s.inflight + {id}
    ensures r.accepted ==> (id in r.server.httpFutures <==> t == Http)
    ensures r.accepted ==> r.server.httpFutures - {id} == s.httpFutures - {id}
    ensures r.accepted ==> r.server.(inflight := s.inflight, httpFutures := s.httpFutures) == s
    ensures !r.accepted ==> r.server == s
  {
    if s.executorShutdown then Submission(s, false)
    else
      Submission(s.(inflight := s.inflight + {id},
                    httpFutures := if t == Http then s.httpFutures + {id} else s.httpFutures - {id}),
                 true)
  }

  /** Whether the success callback writes the reply: the task succeeded and,
      for the HTTP variant, the channel is still active. A failed task
      writes nothing in either variant. */
  predicate WritesReply(t: Transport, succeeded: bool, channelActive: bool) {
    succeeded && (t == Tcp || channelActive)
  }

  /** The task of future `id` finishes; its callback may start writing the
      reply. The callback runs on the worker pool itself, so once `close()`
      has shut the pool down the callback is rejected and nothing is written. */
  function Complete(s: Server, id: FutureId, succeeded: bool, channelActive: bool): (s': Server)
    requires id in s.inflight && id !in s.done
    ensures s'.done == s.done + {id}
    ensures s'.inflight == s.inflight
    ensures var t := if id in s.httpFutures then Http else Tcp;
      s'.writing ==
        (if !s.executorShutdown && WritesReply(t, succeeded, channelActive) then s.writing + {id} else s.writing)
    ensures s'.(done := s.done, writing := s.writing) == s
  {
    var t := if id in s.httpFutures then Http else Tcp;
    s.(done := s.done + {id},
       writing := if !s.executorShutdown && WritesReply(t, succeeded, channelActive) then s.writing + {id} else s.writing)
  }

  /** The write's listener runs: only now is the future removed from the
      in-flight list, whether the write succeeded or not. */
  function Flushed(s: Server, id: FutureId): (s': Server)
    requires id in s.writing
    ensures s'.inflight == s.inflight - {id}
    ensures s'.writing == s.writing - {id}
    ensures s'.written == s.written + [id]
    ensures s'.(inflight := s.inflight, writing := s.writing, written := s.written) == s
  {
    s.(inflight := s.inflight - {id}, writing := s.writing - {id}, written := s.written + [id])
  }

  // ---------------------------------------------------------------------
  // close()
  // ---------------------------------------------------------------------

  /** `close()` up to the drain: the first call sets `isClosed`, goes offline
      and starts waiting for the futures of the in-flight list as it is now;
      every later call returns without effect. */
  function Close(s: Server): (s': Server)
    ensures s.closed ==> s' == s
    ensures !s.closed ==>
      && s'.closed
      && s'.handler == GoOffline(s.handler)
      && s'.phase == Draining(s.inflight)
      && s'.teardown == s.teardown + [WentOffline]
      && s'.(closed := s.closed, handler := s.handler, phase := s.phase, teardown := s.teardown) == s
  {
    if s.closed then s
    else s.(closed := true, handler := GoOffline(s.handler), phase := Draining(s.inflight),
            teardown := s.teardown + [WentOffline])
  }

  /** The unregister attempts of `close()`: every bean whose registry name
      maps to a registry, in order; `ok` says whether its `unRegister`
      returned normally. */
  function UnregisterAll(beans: seq<ServiceBean>, regs: map<string, Registry>, ok: string -> bool): (ts: seq<Teardown>)
    ensures |ts| <= |beans|
    ensures forall k | 0 <= k < |ts| :: ts[k].Unregistered? && ts[k].ok == ok(ts[k].serviceName)
    decreases |beans|
  {
    if |beans| == 0 then []
    else
      (if RegistryOf(beans[0], regs).Some? then [Unregistered(beans[0].serviceName, ok(beans[0].serviceName))] else [])
        + UnregisterAll(beans[1..], regs, ok)
  }

  /** The names of the beans that have a registry, in order. */
  function WithRegistry(beans: seq<ServiceBean>, regs: map<string, Registry>): seq<string>
    decreases |beans|
  {
    if |beans| == 0 then []
    else (if RegistryOf(beans[0], regs).Some? then [beans[0].serviceName] else []) + WithRegistry(beans[1..], regs)
  }

  function AttemptedNames(ts: seq<Teardown>): seq<string>
    requires forall k | 0 <= k < |ts| :: ts[k].Unregistered?
  {
    seq(|ts|, k requires 0 <= k < |ts| => ts[k].serviceName)
  }

  /** One bean's unregister failure does not stop the others: every bean
      with a registry is attempted, in order, whatever the outcomes. */
  lemma {:induction false} UnregisterIsolated(beans: seq<ServiceBean>, regs: map<string, Registry>, ok: string -> bool)
    ensures AttemptedNames(UnregisterAll(beans, regs, ok)) == WithRegistry(beans, regs)
    decreases |beans|
  {
    if |beans| > 0 {
      UnregisterIsolated(beans[1..], regs, ok);
      var head := if RegistryOf(beans[0], regs).Some? then [Unregistered(beans[0].serviceName, ok(beans[0].serviceName))] else [];
      var rest := UnregisterAll(beans[1..], regs, ok);
      assert UnregisterAll(beans, regs, ok) == head + rest;
      assert AttemptedNames(head + rest) == AttemptedNames(head) + AttemptedNames(rest);
    }
  }

  /** The services whose unregister returned normally. */
  function UnregisteredOk(ts: seq<Teardown>): set<string> {
    set k | 0 <= k < |ts| && ts[k].Unregistered? && ts[k].ok :: ts[k].serviceName
  }

  /** `close()` after the drain: once every future it waits for is done, shut
      the worker pool down, then unregister each bean that has a registry. */
  function FinishClose(s: Server, ok: string -> bool): (s': Server)
    requires s.phase.Draining? && s.phase.waitFor <= s.done
    ensures s'.phase == Finished && s'.executorShutdown
    ensures s'.teardown ==
      s.teardown + [AllDone(s.phase.waitFor), ExecutorShutdown] + UnregisterAll(s.services, s.registries, ok)
    ensures s'.registered == s.registered - UnregisteredOk(UnregisterAll(s.services, s.registries, ok))
    ensures s'.(phase := s.phase, executorShutdown := s.executorShutdown,
                teardown := s.teardown, registered := s.registered) == s
  {
    var attempts := UnregisterAll(s.services, s.registries, ok);
    s.(phase := Finished, executorShutdown := true,
       teardown := s.teardown + [AllDone(s.phase.waitFor), ExecutorShutdown] + attempts,
       registered := s.registered - UnregisteredOk(attempts))
  }

  /** `close()` runs its body at most once. */
  lemma CloseOnce(s: Server)
    ensures Close(Close(s)) == Close(s)
    ensures Close(s).closed
  {
  }

  /** The teardown order of a first `close()`: offline, all futures of the
      in-flight list done, pool shut down, then one unregister per bean that
      has a registry, failures included. */
  lemma {:induction false} TeardownOrder(s: Server, steps: seq<Step>, ok: string -> bool)
    requires Inv(s) && !s.closed
    requires Run(Close(s), steps).phase == Draining(s.inflight)
    requires s.inflight <= Run(Close(s), steps).done
    ensures var s' := FinishClose(Run(Close(s), steps), ok);
      && s'.teardown == s.teardown + [WentOffline, AllDone(s.inflight), ExecutorShutdown]
                        + UnregisterAll(s.services, s.registries, ok)
      && AttemptedNames(UnregisterAll(s.services, s.registries, ok)) == WithRegistry(s.services, s.registries)
      && s'.executorShutdown
  {
    ApplyKeepsInv(s, CloseStep);
    DrainingKeepsTeardown(Close(s), steps, s.inflight);
    UnregisterIsolated(s.services, s.registries, ok);
  }

  /** While `close()` is waiting, the other steps leave the teardown record,
      the service map and the registry map alone. */
  lemma {:induction false} DrainingKeepsTeardown(s: Server, steps: seq<Step>, snap: set<FutureId>)
    requires Inv(s) && s.phase == Draining(snap)
    ensures var s' := Run(s, steps);
      s'.phase == Draining(snap) ==>
        s'.teardown == s.teardown && s'.services == s.services && s'.registries == s.registries
    decreases |steps|
  {
    if |steps| > 0 {
      var s1 := Apply(s, steps[0]);
      ApplyKeepsInv(s, steps[0]);
      if s1.phase == Draining(snap) {
        DrainingKeepsTeardown(s1, steps[1..], snap);
      } else {
        assert s1.phase.Finished?;
        FinishedKeepsDone(s1, steps[1..], {});
      }
    }
  }

  // ---------------------------------------------------------------------
  // Receiving a request
  // ---------------------------------------------------------------------

  datatype Received = Received(outcome: Outcome, server: Server)

  /** The names of a list of beans, as a set. */
  function NameSet(beans: seq<ServiceBean>): set<string> {
    set i | 0 <= i < |beans| :: beans[i].serviceName
  }

  /** The handler on a request: route it, apply a successful registry list
      call to the registered set, and submit the built request (HTTP
      variant) as future `id`. */
  function Receive(s: Server, req: HttpRequest, env: Env, id: FutureId): (r: Received)
    requires |env.freshId| > 0 && env.table == s.services
    requires |env.registries| == |s.registries| && forall g | g in env.registries :: g in s.registries.Values
    requires id !in s.inflight && id !in s.done
    ensures |s.registries| > 0 ==> r.outcome != Thrown(NoRegistry)
    ensures r.server.handler == Route(s.handler, req, env).handler
    ensures r.server.inflight == (if r.outcome.Submitted? then s.inflight + {id} else s.inflight)
    ensures r.outcome.Submitted? ==> Route(s.handler, req, env).outcome == r.outcome && id in r.server.httpFutures
    ensures Route(s.handler, req, env).outcome.Submitted? && s.executorShutdown ==> r.outcome == Thrown(SubmitRejected)
    ensures !Route(s.handler, req, env).outcome.Submitted? ==> r.outcome == Route(s.handler, req, env).outcome
    ensures Route(s.handler, req, env).outcome.Submitted? && !s.executorShutdown ==>
      r.outcome == Route(s.handler, req, env).outcome
    ensures r.server.httpFutures == (if r.outcome.Submitted? then s.httpFutures + {id} else s.httpFutures)
    ensures r.server.registered ==
      if |s.registries| == 0 || !env.listCallOk then s.registered
      else if req.path == OnlinePath then s.registered + NameSet(s.services)
      else if req.path == OfflinePath then s.registered - NameSet(s.services)
      else s.registered
    ensures r.server.(handler := s.handler, registered := s.registered, inflight := s.inflight,
                      httpFutures := s.httpFutures) == s
  {
    var routed := Route(s.handler, req, env);
    var registered :=
      if |routed.calls| == 0 || !env.listCallOk then s.registered
      else if routed.calls[0].RegisterList? then s.registered + NameSet(s.services)
      else s.registered - NameSet(s.services);
    var s1 := s.(handler := routed.handler, registered := registered);
    if routed.outcome.Submitted? then
      var sub := Submit(s1, id, Http);
      if sub.accepted then Received(routed.outcome, sub.server)
      else Received(Thrown(SubmitRejected), s1)
    else Received(routed.outcome, s1)
  }

  // ---------------------------------------------------------------------
  // Runs of the state machine
  // ---------------------------------------------------------------------

  /** The environment's steps. A step that is not enabled leaves the state as it is. */
  datatype Step =
    | SubmitStep(id: FutureId, transport: Transport)
    | CompleteStep(id: FutureId, succeeded: bool, channelActive: bool)
    | FlushStep(id: FutureId)
    | CloseStep
    | FinishCloseStep(ok: string -> bool)

  function Apply(s: Server, st: Step): Server {
    match st
    case SubmitStep(id, t) => if id !in s.inflight && id !in s.done then Submit(s, id, t).server else s
    case CompleteStep(id, ok, active) => if id in s.inflight && id !in s.done then Complete(s, id, ok, active) else s
    case FlushStep(id) => if id in s.writing then Flushed(s, id) else s
    case CloseStep => Close(s)
    case FinishCloseStep(ok) => if s.phase.Draining? && s.phase.waitFor <= s.done then FinishClose(s, ok) else s
  }

  function Run(s: Server, steps: seq<Step>): Server
    decreases |steps|
  {
    if |steps| == 0 then s else Run(Apply(s, steps[0]), steps[1..])
  }

  /** Every step keeps the consistency invariant. */
  lemma ApplyKeepsInv(s: Server, st: Step)
    requires Inv(s)
    ensures Inv(Apply(s, st))
  {
    match st
    case SubmitStep(id, t) =>
    case CompleteStep(id, ok, active) =>
    case FlushStep(id) =>
      if id in s.writing {
        var s' := Flushed(s, id);
        forall x | x in s'.written
          ensures x in s'.done && x !in s'.inflight
        {
          if x != id {
            assert x in s.written;
          }
        }
      }
    case CloseStep =>
    case FinishCloseStep(ok) =>
  }

  /** Runs keep the invariant. */
  lemma {:induction false} RunKeepsInv(s: Server, steps: seq<Step>)
    requires Inv(s)
    ensures Inv(Run(s, steps))
    decreases |steps|
  {
    if |steps| > 0 {
      ApplyKeepsInv(s, steps[0]);
      RunKeepsInv(Apply(s, steps[0]), steps[1..]);
    }
  }

  /** A future leaves the in-flight list only once its reply was written. */
  lemma RemovedOnlyAfterWrite(s: Server, steps: seq<Step>, id: FutureId)
    requires Inv(s) && id in s.inflight
    ensures id !in Run(s, steps).inflight ==> id in Run(s, steps).written
  {
    RunKeepsInv(s, steps);
    RunKeepsDone(s, steps, id);
  }

  /** Done futures stay done. */
  lemma {:induction false} RunKeepsDone(s: Server, steps: seq<Step>, id: FutureId)
    requires Inv(s) && (id in s.inflight || id in s.done)
    ensures id in Run(s, steps).inflight || id in Run(s, steps).done
    decreases |steps|
  {
    if |steps| > 0 {
      ApplyKeepsInv(s, steps[0]);
      RunKeepsDone(Apply(s, steps[0]), steps[1..], id);
    }
  }

  /** A future whose task finished without starting a write — it failed, or
      the HTTP channel was inactive — is never removed from the in-flight
      list, whatever happens afterwards. */
  lemma {:induction false} UnwrittenFutureStays(s: Server, steps: seq<Step>, id: FutureId)
    requires id in s.inflight && id in s.done && id !in s.writing
    ensures id in Run(s, steps).inflight && id !in Run(s, steps).writing
    decreases |steps|
  {
    if |steps| > 0 {
      UnwrittenFutureStays(Apply(s, steps[0]), steps[1..], id);
    }
  }

  /** In particular, an HTTP task that succeeds on an inactive channel, any
      task that fails, and any task that finishes after the pool was shut
      down stays in-flight for good. */
  lemma NoWriteNoRemoval(s: Server, id: FutureId, succeeded: bool, channelActive: bool, steps: seq<Step>)
    requires id in s.inflight && id !in s.done && id !in s.writing
    requires s.executorShutdown || !WritesReply(if id in s.httpFutures then Http else Tcp, succeeded, channelActive)
    ensures id in Run(Complete(s, id, succeeded, channelActive), steps).inflight
  {
    UnwrittenFutureStays(Complete(s, id, succeeded, channelActive), steps, id);
  }

  /** The pool is shut down only after every future that was in flight when
      `close()` began is done. */
  lemma {:induction false} ShutdownAfterDrain(s: Server, steps: seq<Step>)
    requires Inv(s) && !s.closed
    ensures var s' := Run(Close(s), steps);
      s'.executorShutdown ==> s.inflight <= s'.done
  {
    ApplyKeepsInv(s, CloseStep);
    RunKeepsInv(Close(s), steps);
    DrainSnapshotKept(Close(s), steps, s.inflight);
  }

  /** Once draining on a snapshot, the phase moves on only when the whole
      snapshot is done, and done futures stay done. */
  lemma {:induction false} DrainSnapshotKept(s: Server, steps: seq<Step>, snap: set<FutureId>)
    requires Inv(s) && s.phase == Draining(snap)
    ensures var s' := Run(s, steps);
      s'.phase == Draining(snap) || (s'.phase.Finished? && snap <= s'.done)
    decreases |steps|
  {
    if |steps| > 0 {
      var s1 := Apply(s, steps[0]);
      ApplyKeepsInv(s, steps[0]);
      if s1.phase == Draining(snap) {
        DrainSnapshotKept(s1, steps[1..], snap);
      } else {
        assert s1.phase.Finished? && snap <= s1.done;
        FinishedKeepsDone(s1, steps[1..], snap);
      }
    }
  }

  /** After close has finished, the phase stays finished and done futures stay done. */
  lemma {:induction false} FinishedKeepsDone(s: Server, steps: seq<Step>, snap: set<FutureId>)
    requires Inv(s) && s.phase.Finished? && snap <= s.done
    ensures Run(s, steps).phase.Finished? && snap <= Run(s, steps).done
    decreases |steps|
  {
    if |steps| > 0 {
      ApplyKeepsInv(s, steps[0]);
      FinishedKeepsDone(Apply(s, steps[0]), steps[1..], snap);
    }
  }
}

=== FILE: node_status.dfy ===
/** `NodeStatusEnum`: the liveness of a server node, each status carrying the
    fixed display label it was constructed with. */
module NodeStatus {
  import opened Results

  datatype NodeStatus = Online | Offline | Connecting

  /** The constants in declaration order, as `values()` lists them. */
  const Declared: seq<NodeStatus> := [Online, Offline, Connecting]

  /** `ordinal()`: the position of the constant in declaration order. */
  function Ordinal(s: NodeStatus): (i: nat)
    ensures i < |Declared| && Declared[i] == s
  {
    match s
    case Online => 0
    case Offline => 1
    case Connecting => 2
  }

  /** `toString()`: the constant's name, which the status replies carry. */
  function Name(s: NodeStatus): (n: string)
    ensures FromName(n) == Some(s)
  {
    match s
    case Online => "ONLINE"
    case Offline => "OFFLINE"
    case Connecting => "CONNECTING"
  }

  /** `valueOf(name)`; `None` where Java raises IllegalArgumentException. */
  function FromName(n: string): Option<NodeStatus> {
    if n == "ONLINE" then Some(Online)
    else if n == "OFFLINE" then Some(Offline)
    else if n == "CONNECTING" then Some(Connecting)
    else None
  }

  /** `getState()`: the label given to the constant's constructor. */
  function State(s: NodeStatus): (text: string)
    ensures FromState(text) == Some(s)
  {
    match s
    case Online => "存活"
    case Offline => "离线"
    case Connecting => "连接中"
  }

  /** The status whose label is `text`, if any. */
  function FromState(text: string): Option<NodeStatus> {
    if text == "存活" then Some(Online)
    else if text == "离线" then Some(Offline)
    else if text == "连接中" then Some(Connecting)
    else None
  }

  /** There are exactly three statuses, each declared once, in the order
      ONLINE, OFFLINE, CONNECTING. */
  lemma DeclaredIsExact()
    ensures |Declared| == 3
    ensures forall s: NodeStatus :: s in Declared
    ensures forall i, j | 0 <= i < j < |Declared| :: Declared[i] != Declared[j]
    ensures Ordinal(Online) < Ordinal(Offline) < Ordinal(Connecting)
  {
    forall s: NodeStatus
      ensures s in Declared
    {
      assert Declared[Ordinal(s)] == s;
    }
  }

  /** Looking a label up is the exact inverse of `getState`: it finds a
      status iff the label is that status's. */
  lemma FromStateInvertsState(text: string)
    ensures forall s: NodeStatus :: FromState(text) == Some(s) <==> text == State(s)
  {
  }

  /** Distinct statuses have distinct labels: `getState` is injective. */
  lemma StateInjective(a: NodeStatus, b: NodeStatus)
    ensures State(a) == State(b) <==> a == b
  {
    assert FromState(State(a)) == Some(a);
    assert FromState(State(b)) == Some(b);
  }

  /** The labels fixed at construction. */
  lemma StateLabels()
    ensures State(Online) == "存活"
    ensures State(Offline) == "离线"
    ensures State(Connecting) == "连接中"
  {
  }
}

=== FILE: results.dfy ===
/** Optional values (Java's nullable references) and results of operations
    that may raise an exception. */
module Results {

  /** `None` stands for a Java `null`. */
  datatype Option<+T> = None | Some(value: T) {

    /** The value, or `default` for `None` (the `get(key, default)` idiom). */
    function GetOr(default: T): T {
      match this
      case Some(v) => v
      case None => default
    }
  }

  /** The outcome of an operation that returns normally with a value or raises `error`. */
  datatype Result<+R, +E> = Success(value: R) | Failure(error: E) {

    predicate IsFailure() {
      Failure?
    }

    function PropagateFailure<U>(): Result<U, E>
      requires Failure?
    {
      Failure(error)
    }

    function Extract(): R
      requires Success?
    {
      value
    }
  }
}

=== FILE: server_config.dfy ===
/** The configuration rules of `SimpleRpcServer`: defaults and codec
    selection (`initConfig`), bind-address parsing, the per-service
    fallbacks used when registering, and registry construction from a
    configuration map (`mapToRegistry`). */
module ServerConfig {
  import opened Results
  import opened JavaText
  import opened Services

  // ---------------------------------------------------------------------
  // initConfig
  // ---------------------------------------------------------------------

  /** Netty server options; the default is built as `new NettyConfig(128, true)`. */
  datatype NettyConfig = NettyConfig(backlog: int, keepalive: bool)

  const DefaultNettyConfig: NettyConfig := NettyConfig(128, true)
  const DefaultSerialize: string := "kyro"
  const DefaultRegistryName: string := "default"

  /** The wire codecs the server can instantiate. */
  datatype Codec = Kyro | Protostuff

  /** The configurable fields of the server that the core reads. */
  datatype ServerFields = ServerFields(
    nettyConfig: Option<NettyConfig>,
    serialize: Option<string>,
    usedRegistry: bool,
    appId: Option<string>,
    address: Option<string>,
    elasticIp: Option<string>,
    weight: int)

  datatype InitError = InitializeException(message: string)

  datatype Initialized = Initialized(fields: ServerFields, codec: Codec)

  /** The codec named by `name`, compared case-insensitively. */
  function SelectCodec(name: string): (c: Option<Codec>)
    ensures c == Some(Kyro) <==> EqualsIgnoreCase(name, "kyro")
    ensures c == Some(Protostuff) <==> EqualsIgnoreCase(name, "protostuff")
    ensures c.None? <==> !EqualsIgnoreCase(name, "kyro") && !EqualsIgnoreCase(name, "protostuff")
  {
    if EqualsIgnoreCase(name, "kyro") then Some(Kyro)
    else if EqualsIgnoreCase(name, "protostuff") then Some(Protostuff)
    else None
  }

  /** `initConfig`: fills in the Netty options and the codec name, marks the
      registry as used when any registry is configured, and fails when the
      codec name is neither "kyro" nor "protostuff", or when instantiating
      the codec class by reflection yields null (`codecLoads` is false). */
  function InitConfig(f: ServerFields, registries: map<string, Registry>, codecLoads: bool): (r: Result<Initialized, InitError>)
    ensures r.Success? <==> (f.serialize.None? || SelectCodec(f.serialize.value).Some?) && codecLoads
    ensures r.Failure? ==> r.error == InitializeException("RPC server serialize is null.")
    ensures r.Success? ==>
      && r.value.fields.serialize == Some(f.serialize.GetOr(DefaultSerialize))
      && r.value.fields.nettyConfig == Some(f.nettyConfig.GetOr(DefaultNettyConfig))
      && (r.value.fields.usedRegistry <==> f.usedRegistry || |registries| > 0)
      && Some(r.value.codec) == SelectCodec(r.value.fields.serialize.value)
      && r.value.fields.(nettyConfig := f.nettyConfig, serialize := f.serialize,
                         usedRegistry := f.usedRegistry) == f
  {
    var netty := if f.nettyConfig.None? then DefaultNettyConfig else f.nettyConfig.value;
    var name := if f.serialize.None? then DefaultSerialize else f.serialize.value;
    var used := if |registries| > 0 then true else f.usedRegistry;
    match SelectCodec(name)
    case None => Failure(InitializeException("RPC server serialize is null."))
    case Some(c) =>
      if !codecLoads then Failure(InitializeException("RPC server serialize is null."))
      else Success(Initialized(f.(nettyConfig := Some(netty), serialize := Some(name), usedRegistry := used), c))
  }

  /** A server that names no codec gets Kyro; one that names a case variant
      of a known codec gets that codec. */
  lemma CodecDefaults(f: ServerFields, registries: map<string, Registry>, codecLoads: bool)
    ensures f.serialize.None? && codecLoads ==> InitConfig(f, registries, codecLoads) == Success(Initialized(
      f.(nettyConfig := Some(f.nettyConfig.GetOr(DefaultNettyConfig)), serialize := Some("kyro"),
         usedRegistry := f.usedRegistry || |registries| > 0), Kyro))
    ensures f.serialize == Some("KYRO") && codecLoads ==> InitConfig(f, registries, codecLoads).value.codec == Kyro
    ensures f.serialize == Some("ProtoStuff") && codecLoads ==>
      InitConfig(f, registries, codecLoads).value.codec == Protostuff
    ensures f.serialize == Some("json") ==> InitConfig(f, registries, codecLoads).Failure?
  {
    assert EqualsIgnoreCase("kyro", "kyro");
    assert EqualsIgnoreCase("KYRO", "kyro");
    assert EqualsIgnoreCase("ProtoStuff", "protostuff");
    assert !EqualsIgnoreCase("json", "kyro") by {
      assert !CharMatchesIgnoringCase("json"[0], "kyro"[0]);
    }
  }

  // ---------------------------------------------------------------------
  // bindRpcServer: the host and port of the listening socket
  // ---------------------------------------------------------------------

  /** What address parsing leaves behind: the host (null when the address
      had neither one nor two parts), the port (-1 then) and the server's
      address field, rewritten to "host:port" when only a port was given. */
  datatype BindTarget = BindTarget(host: Option<string>, port: int, address: string)

  /** Exceptions that abort the start inside `bindRpcServer`. */
  datatype StartError =
    | NullAddress
    | NumberFormat(text: string)
    | BindFailed
    | RegistryMissing(serviceName: string)
    | RegisterFailed(serviceName: string)

  /** The address split on ':' — one part is a port on the local host, two
      parts are host and port, any other count leaves host null and port -1.
      A port that `Integer.parseInt` rejects raises NumberFormatException. */
  function ParseBindAddress(address: Option<string>, localHost: string): (r: Result<BindTarget, StartError>)
    ensures address.None? ==> r == Failure(NullAddress)
    ensures address.Some? && |Split(address.value, ':')| == 1 ==>
      var p := ParseInt(Split(address.value, ':')[0]);
      if p.None? then r.Failure?
      else r == Success(BindTarget(Some(localHost), p.value, localHost + ":" + IntToString(p.value)))
    ensures address.Some? && |Split(address.value, ':')| == 2 ==>
      var p := ParseInt(Split(address.value, ':')[1]);
      if p.None? then r.Failure?
      else r == Success(BindTarget(Some(Split(address.value, ':')[0]), p.value, address.value))
    ensures address.Some? && r.Failure? ==> r.error.NumberFormat?
    ensures address.Some? && |Split(address.value, ':')| !in {1, 2} ==>
      r == Success(BindTarget(None, -1, address.value))
  {
    if address.None? then Failure(NullAddress)
    else
      var parts := Split(address.value, ':');
      if |parts| == 1 then
        match ParseInt(parts[0])
        case None => Failure(NumberFormat(parts[0]))
        case Some(port) => Success(BindTarget(Some(localHost), port, localHost + ":" + IntToString(port)))
      else if |parts| == 2 then
        match ParseInt(parts[1])
        case None => Failure(NumberFormat(parts[1]))
        case Some(port) => Success(BindTarget(Some(parts[0]), port, address.value))
      else Success(BindTarget(None, -1, address.value))
  }

  /** The decimal form of an int holds no ':'. */
  lemma IntToStringHasNoColon(n: int)
    ensures ':' !in IntToString(n)
  {
    var s := IntToString(n);
    forall i | 0 <= i < |s|
      ensures s[i] != ':'
    {
      if n < 0 && i > 0 {
        assert s[i] == NatToString(-n)[i - 1];
      }
    }
  }

  /** "host:port" binds that host and port and keeps the address as written. */
  lemma ParseHostAndPort(host: string, port: int, localHost: string)
    requires ':' !in host && MinInt <= port <= MaxInt
    ensures ParseBindAddress(Some(host + ":" + IntToString(port)), localHost)
      == Success(BindTarget(Some(host), port, host + ":" + IntToString(port)))
  {
    IntToStringHasNoColon(port);
    SplitHostPort(host, IntToString(port), ':');
    ParseIntToString(port);
  }

  /** A bare port binds the local host and rewrites the address to "localHost:port". */
  lemma ParsePortOnly(port: int, localHost: string)
    requires MinInt <= port <= MaxInt
    ensures ParseBindAddress(Some(IntToString(port)), localHost)
      == Success(BindTarget(Some(localHost), port, localHost + ":" + IntToString(port)))
  {
    IntToStringHasNoColon(port);
    ParseIntToString(port);
  }

  /** The rewritten address is stable: parsing it again binds the same host
      and port and leaves it unchanged. */
  lemma RewrittenAddressIsStable(address: string, localHost: string)
    requires ':' !in localHost
    requires ParseBindAddress(Some(address), localHost).Success?
    requires ParseBindAddress(Some(address), localHost).value.host.Some?
    ensures var t := ParseBindAddress(Some(address), localHost).value;
      ParseBindAddress(Some(t.address), localHost) == Success(t)
  {
    var t := ParseBindAddress(Some(address), localHost).value;
    var parts := Split(address, ':');
    if |parts| == 1 {
      ParseHostAndPort(localHost, t.port, localHost);
    } else {
      assert |parts| == 2;
      var port := ParseInt(parts[1]).value;
      assert t.address == address;
      if ':' in address {
        var pieces := Pieces(address, ':');
        PiecesJoin(address, ':');
        assert parts[1] != "";
        assert |pieces| >= 2 && pieces[0] == parts[0] && pieces[1] == parts[1];
      }
    }
  }

  // ---------------------------------------------------------------------
  // Per-service values used at registration
  // ---------------------------------------------------------------------

  /** The bean's own value when it is non-empty, else the server-level value. */
  function Fallback(own: Option<string>, serverLevel: Option<string>): (r: Option<string>)
    ensures !IsEmpty(own) ==> r == own
    ensures IsEmpty(own) ==> r == serverLevel
  {
    if !IsEmpty(own) then own else serverLevel
  }

  /** `getAppId`. */
  function AppIdFor(f: ServerFields, b: ServiceBean): Option<string> {
    Fallback(b.appId, f.appId)
  }

  /** `getBindAddress`. */
  function BindAddressFor(f: ServerFields, b: ServiceBean): Option<string> {
    Fallback(b.address, f.address)
  }

  /** `getRegisterElasticIp`. */
  function ElasticIpFor(f: ServerFields, b: ServiceBean): Option<string> {
    Fallback(b.elasticIp, f.elasticIp)
  }

  /** `getRegistryName`: the bean's registry when named, else "default". */
  function RegistryName(b: ServiceBean): (n: string)
    ensures !IsEmpty(b.registry) ==> n == b.registry.value
    ensures IsEmpty(b.registry) ==> n == DefaultRegistryName
    ensures |n| > 0
  {
    if !IsEmpty(b.registry) then b.registry.value else DefaultRegistryName
  }

  /** `usedRegistry(bean)`: the bean names a registry, or a "default" one exists. */
  predicate UsesRegistry(b: ServiceBean, registries: map<string, Registry>) {
    !IsEmpty(b.registry) || DefaultRegistryName in registries
  }

  /** `getRegistry`: the registry the bean's registry name maps to, if any. */
  function RegistryOf(b: ServiceBean, registries: map<string, Registry>): (r: Option<Registry>)
    ensures r.Some? <==> RegistryName(b) in registries
    ensures r.Some? ==> r.value == registries[RegistryName(b)]
  {
    var n := RegistryName(b);
    if n in registries then Some(registries[n]) else None
  }

  /** A bean that finds a registry is one that uses a registry; so a bean
      skipped at startup is also skipped when unregistering on close. */
  lemma RegistryOfImpliesUses(b: ServiceBean, registries: map<string, Registry>)
    ensures RegistryOf(b, registries).Some? ==> UsesRegistry(b, registries)
  {
  }

  /** The bean as the startup loop prepares it before calling `register`:
      registry name, appId, address and elastic IP filled in. */
  function Prepare(f: ServerFields, b: ServiceBean): (p: ServiceBean)
    ensures p.serviceName == b.serviceName && p.target == b.target
    ensures p.registry == Some(RegistryName(b))
    ensures p.appId == (if IsEmpty(b.appId) then f.appId else b.appId)
    ensures p.address == (if IsEmpty(b.address) then f.address else b.address)
    ensures p.elasticIp == (if IsEmpty(b.elasticIp) then f.elasticIp else b.elasticIp)
  {
    b.(registry := Some(RegistryName(b)), appId := AppIdFor(f, b),
       address := BindAddressFor(f, b), elasticIp := ElasticIpFor(f, b))
  }

  /** Preparing twice changes nothing more. */
  lemma {:induction false} PrepareIdempotent(f: ServerFields, b: ServiceBean)
    ensures Prepare(f, Prepare(f, b)) == Prepare(f, b)
  {
    var p := Prepare(f, b);
    assert RegistryName(p) == RegistryName(b);
    assert AppIdFor(f, p) == p.appId by {
      if IsEmpty(b.appId) && !IsEmpty(f.appId) {
        assert p.appId == f.appId;
      }
    }
  }

  // ---------------------------------------------------------------------
  // mapToRegistry
  // ---------------------------------------------------------------------

  /** Names of the registry types ("default" and "zookeeper"). */
  const DefaultTypeName: string := "default"
  const ZookeeperTypeName: string := "zookeeper"

  datatype ConfigError = SystemException(message: string)

  /** The registry a configuration map describes: a local registry for type
      "default", a ZooKeeper client for type "zookeeper" with a non-empty
      address (`zkLoads` says whether the client class could be loaded and
      constructed; if not the result is null), and null for any other type. */
  function MapToRegistry(m: map<string, string>, zkLoads: bool): (r: Result<Option<Registry>, ConfigError>)
    ensures "type" in m && m["type"] == DefaultTypeName ==> r == Success(Some(LocalRegistry))
    ensures r.Failure? <==>
      "type" in m && m["type"] == ZookeeperTypeName && ("address" !in m || m["address"] == "")
    ensures r.Failure? ==> r.error == SystemException("Zookeeper connect address not is empty")
    ensures "type" in m && m["type"] == ZookeeperTypeName && "address" in m && m["address"] != "" ==>
      r == Success(if zkLoads then Some(ZookeeperRegistry(m["address"])) else None)
    ensures r.Success? && r.value.Some? && r.value.value.ZookeeperRegistry? ==>
      "type" in m && m["type"] == ZookeeperTypeName && zkLoads && "address" in m
      && r.value.value.zkAddress == m["address"]
    ensures ("type" !in m || m["type"] !in {DefaultTypeName, ZookeeperTypeName}) ==> r == Success(None)
  {
    var kind := if "type" in m then Some(m["type"]) else None;
    if kind == Some(DefaultTypeName) then Success(Some(LocalRegistry))
    else if kind == Some(ZookeeperTypeName) then
      var zk := if "address" in m then Some(m["address"]) else None;
      if IsEmpty(zk) then Failure(SystemException("Zookeeper connect address not is empty"))
      else if zkLoads then Success(Some(ZookeeperRegistry(zk.value)))
      else Success(None)
    else Success(None)
  }
}

=== FILE: services.dfy ===
/** The records the server works on: service descriptors (`ServiceBean`),
    the reflective view of a service's methods, registry backends, built
    requests and lifecycle events. */
module Services {
  import opened Results

  /** A JSON value as the request body's `parameters` list carries it. */
  datatype Json = JNull | JBool(b: bool) | JNumber(n: int) | JText(s: string) | JList(items: seq<Json>)

  /** One method as reflection reports it; types are class names. */
  datatype MethodSig = MethodSig(name: string, parameterTypes: seq<string>, returnType: string)

  /** The class behind a service object, with its methods in reflection order. */
  datatype TargetClass = TargetClass(className: string, methods: seq<MethodSig>)

  /** A service descriptor. `target` is the service object (null when the
      wiring left it unset); the address fields and the registry name are
      optional overrides of the server-level values. */
  datatype ServiceBean = ServiceBean(
    serviceName: string,
    target: Option<TargetClass>,
    appId: Option<string>,
    address: Option<string>,
    elasticIp: Option<string>,
    registry: Option<string>)

  /** The registry backends: the local no-op one and the ZooKeeper client. */
  datatype Registry = LocalRegistry | ZookeeperRegistry(zkAddress: string)

  /** A request ready for execution (`RpcRequest`). */
  datatype RpcRequest = RpcRequest(
    requestId: string,
    className: string,
    methodName: string,
    context: Option<map<string, string>>,
    parameterTypes: seq<string>,
    returnType: string,
    parameters: seq<Json>)

  /** Lifecycle events (`EventType.SERVER_ONLINE`, `EventType.SERVER_OFFLINE`). */
  datatype Event = ServerOnline | ServerOffline

  /** The service map is keyed by service name; this is its `values()` in
      iteration order, and lookup by name finds the first bean so named. */
  function Lookup(table: seq<ServiceBean>, name: string): (r: Option<ServiceBean>)
    ensures r.Some? ==> r.value in table && r.value.serviceName == name
    ensures r.None? <==> forall i | 0 <= i < |table| :: table[i].serviceName != name
    decreases |table|
  {
    if |table| == 0 then None
    else if table[0].serviceName == name then Some(table[0])
    else Lookup(table[1..], name)
  }

  /** Service names are unique keys of the map. */
  predicate UniqueNames(table: seq<ServiceBean>) {
    forall i, j | 0 <= i < j < |table| :: table[i].serviceName != table[j].serviceName
  }

  /** In a map with unique keys, looking a bean's name up finds that bean. */
  lemma {:induction false} LookupFindsBean(table: seq<ServiceBean>, i: nat)
    requires UniqueNames(table) && i < |table|
    ensures Lookup(table, table[i].serviceName) == Some(table[i])
    decreases |table|
  {
    if i > 0 {
      assert table[0].serviceName != table[i].serviceName;
      assert table[1..][i - 1] == table[i];
      LookupFindsBean(table[1..], i - 1);
    }
  }

  /** Method lookup by name only: the first method with that name, overloads
      ignored. */
  function FindMethod(methods: seq<MethodSig>, name: string): (r: Option<MethodSig>)
    ensures r.Some? ==> r.value in methods && r.value.name == name
    ensures r.None? <==> forall i | 0 <= i < |methods| :: methods[i].name != name
    decreases |methods|
  {
    if |methods| == 0 then None
    else if methods[0].name == name then Some(methods[0])
    else FindMethod(methods[1..], name)
  }
}
